=== FILE: README.md ===
# Conversation-extract archive: renamer and reconciler

This project models two scripts that maintain a directory of Markdown transcripts of
chat sessions.

- **Renamer** (`scripts/rename-extracts.py`). It reads one transcript and extracts:
  - its session id;
  - the header start date;
  - the latest in-range date in the text;
  - the project name from working-directory paths.

  From these it derives a description slug and a title. It renders a YAML frontmatter block
  and replaces any leading `---` … `---` block with it. It picks the first free name of the
  form `MM-DD-YYYY--MM-DD-YYYY-description[-k].md`. Finally it writes the new text there and
  deletes the original if the name changed.
- **Reconciler** (`scripts/update-extracts.py`). It indexes the archive by truncated session
  id, with the last file winning. It keeps each file's user-notes block, delimited by two
  literal markers. For every freshly extracted `claude-conversation-*.md` file, it then
  takes one of four actions:
  - updates the indexed file in place, appending the notes again;
  - leaves it unchanged, when the content differs only in the notes block or in trailing
    whitespace;
  - copies a file of an unknown session in verbatim;
  - skips a file with no id.

The directory is a `map<string, string>` from file name to content, and strings are
`seq<char>`. Every regular expression becomes a matcher anchored at one position.
`Search.First` supplies `re.search`'s leftmost scan. Each matcher's greedy and backtracking
behaviour is worked out by hand and documented at the matcher.

Modules:

- `Wrappers`: `Option`.
- `Text`: the following Python string operations, over ASCII case and Python's `isspace` set:
  - character classes;
  - `find`, `in`;
  - `strip`, `lstrip`, `rstrip`;
  - `replace(x, "")`;
  - line joining and splitting.
- `Search`: the leftmost-match combinator.
- `Dates`: `datetime` validity and ordering, plus digit runs and the `strftime` layouts.
- `Metadata`: the renamer's extractors.
- `Describe`: the slug, the description rules and the title.
- `Frontmatter`: rendering, reading back, and replacement of the block.
- `Renamer`: the target name, the collision loop and `process_file`.
- `Reconciler`: session ids, the notes block, the index, change detection and the update run.

Behaviour of the code a reader might not expect:

- **Project name fall-through.** Project-name patterns are tried in order. A pattern whose
  first match fails validation falls through to the next pattern; the search does not stop.
- **Truncation comes last.** `sanitize_description` truncates to 50 characters after trimming
  hyphens, so a slug can end in `-` (`Describe.SanitizeCanEndWithHyphen`).
- **Latest date uses non-overlapping matches.** The latest date is the maximum over the
  matches `re.finditer` reports. Those matches do not overlap, so an overlapped occurrence
  such as the `2025-02-03` inside `2024-01-2025-02-03` is never considered.
- **Change detection.** Change detection right-strips both sides. It deletes every occurrence
  of the notes block from the old text, and only when the block occurs in it. It is not a
  plain textual removal.
- **Renamer idempotence.** The renamer is idempotent for one file's frontmatter
  (`Frontmatter.AddFrontmatterIdempotent`). It is not shown idempotent for a whole run: see
  "Left out".

## Model

| member | source | states |
|---|---|---|
| Search.First | scripts/rename-extracts.py:29 | `re.search` returns the capture at the leftmost matching position, and nothing iff the pattern matches at no position |
| Text.RemoveAll | scripts/update-extracts.py:173 | `replace(notes, "")` never lengthens the text |
| Text.RemoveAllChanges | scripts/update-extracts.py:173 | the text is unchanged iff the removed string does not occur in it, and otherwise loses at least one copy of it |
| Text.RemoveAllFirst | scripts/update-extracts.py:173 | `replace` keeps everything before the leftmost occurrence, drops that occurrence and treats the rest alike, so every non-overlapping occurrence is removed, leftmost first |
| Text.RemoveAllFrom | scripts/update-extracts.py:173 | from any point up to the leftmost occurrence, `replace` keeps the text up to that occurrence and continues after it |
| Metadata.SessionIdAt | scripts/rename-extracts.py:29 | a `Session ID:` match at a position is present only where the label occurs there (ASCII case ignored), and its capture is a non-empty run of `[a-f0-9-]` in either case |
| Metadata.ExtractSessionId | scripts/rename-extracts.py:27-32 | the id is the capture of the leftmost position where the pattern matches, and it is absent exactly when the pattern matches nowhere |
| Metadata.StartDateAt | scripts/rename-extracts.py:38 | a header-date match needs a line start and the literal `Date:` at that position |
| Metadata.ExtractStartDate | scripts/rename-extracts.py:35-41 | the start date comes from the leftmost header-date match and is absent exactly when no line matches; it is not yet validated as a calendar date |
| Metadata.DateMatchesFrom | scripts/rename-extracts.py:50 | every reported position holds a `DDDD-DD-DD` shape and successive matches are at least ten characters apart (non-overlapping) |
| Metadata.DateMatchesCover | scripts/rename-extracts.py:50 | every date-shaped position is either reported or lies inside an earlier reported match |
| Metadata.Latest | scripts/rename-extracts.py:51-59 | the result is absent iff no date qualifies (real calendar date, year 2020..2030); otherwise it is one of the qualifying dates and no qualifying date is later |
| Metadata.ExtractLatestDate | scripts/rename-extracts.py:44-59 | absent iff no reported match is a qualifying date; otherwise the latest qualifying date among the matches |
| Metadata.PathRuleAt | scripts/rename-extracts.py:65-69 | a project pattern's capture is a non-empty run of `[a-zA-Z0-9_-]` |
| Metadata.RuleSearch | scripts/rename-extracts.py:71-72 | the first match of one project pattern captures a non-empty name-class run |
| Metadata.FirstAccepted | scripts/rename-extracts.py:71-78 | the result is present iff some pattern's first match passes validation, and it is the first such match in pattern order; patterns failing validation are skipped |
| Metadata.ExtractProjectName | scripts/rename-extracts.py:62-78 | a present name has length 3..49, does not start with `-`, uses only `[A-Za-z0-9_-]`, and is the first validated match in pattern order; absent iff no pattern yields a valid match |
| Dates.DaysInMonth | scripts/rename-extracts.py:52 | a month has between 28 and 31 days (leap February included) |
| Dates.NotAfterIsTotalOrder | scripts/rename-extracts.py:226 | the comparison of `datetime` values is a total order: reflexive, total, antisymmetric, transitive |
| Dates.DecimalAtSame | scripts/rename-extracts.py:52 | the integer value of a digit run depends only on its characters |
| Dates.Pad2 | scripts/rename-extracts.py:242 | `%m`/`%d` produce two digits that read back as the number |
| Dates.Pad4 | scripts/rename-extracts.py:242 | `%Y` produces four digits that read back as the year |
| Dates.Iso | scripts/rename-extracts.py:163-164 | `%Y-%m-%d` has date shape and reads back as the same date |
| Dates.Mdy | scripts/rename-extracts.py:242 | `%m-%d-%Y` is ten characters whose fields read back as month, day and year |
| Dates.Itos | scripts/rename-extracts.py:248 | `str(n)` is a non-empty digit run without a leading zero (except `0`) |
| Dates.ItosRoundTrip | scripts/rename-extracts.py:248 | reading `str(n)` back as a decimal gives `n` |
| Dates.ItosInjective | scripts/rename-extracts.py:248 | distinct counters have distinct spellings |
| Describe.Hyphenate | scripts/rename-extracts.py:84 | each character outside `[a-z0-9-]` becomes `-`, others are kept, length unchanged |
| Describe.Collapse | scripts/rename-extracts.py:86 | the result has no `--`, keeps first and last characters, is empty iff the input is, and keeps the slug alphabet |
| Describe.CollapseDropsRepeats | scripts/rename-extracts.py:86 | collapsing equals removing exactly the hyphens whose left neighbour is a hyphen: every run of hyphens becomes one hyphen and every other character is kept in order |
| Describe.TrimStart | scripts/rename-extracts.py:88 | the result is the suffix left after removing a prefix made only of `-`, and does not start with `-` |
| Describe.TrimEnd | scripts/rename-extracts.py:88 | the result is a prefix left after removing only `-` characters, and does not end with `-` |
| Describe.TrimHyphens | scripts/rename-extracts.py:88 | the result is the slice of the input left when only hyphens are cut from both ends, and has no `-` at either end |
| Describe.Slug | scripts/rename-extracts.py:84-88 | before truncation the slug is over `[a-z0-9-]`, has no `--`, and has no hyphen at either end |
| Describe.SlugSqueezes | scripts/rename-extracts.py:84-88 | the slug is the lower-cased, hyphenated text with every repeat hyphen dropped and only hyphens cut from both ends |
| Describe.SlugKeepsAlnums | scripts/rename-extracts.py:84-88 | the slug keeps every letter and digit of the lower-cased input, in order, and nothing else alphanumeric |
| Describe.SlugEmptyIff | scripts/rename-extracts.py:84-90 | the slug is empty exactly when no character lower-cases into `[a-z0-9]` |
| Describe.SlugOfSlugShape | scripts/rename-extracts.py:84-88 | a string already in slug shape passes through every step unchanged |
| Describe.CanonicalSlug | scripts/rename-extracts.py:84-90 | a canonical description (slug shape, length at most 50) is its own slug |
| Describe.SanitizeDescription | scripts/rename-extracts.py:81-90 | the result is 1..50 characters over `[a-z0-9-]` with no `--` and no leading `-`; it is `conversation` exactly when the slug is empty (nothing alphanumeric survives), otherwise the slug's first min(50, length) characters; a canonical input comes back unchanged |
| Describe.HyphenSampleIsSlug | scripts/rename-extracts.py:84-88 | forty-nine letters, a hyphen and a letter form a slug unchanged by sanitizing steps |
| Describe.SanitizeCanEndWithHyphen | scripts/rename-extracts.py:88-90 | because truncation follows trimming, a 51-character slug is cut to a result that ends in `-` |
| Describe.IsAgentSession | scripts/rename-extracts.py:93-99 | a session is an agent session iff `agent-` occurs in the lower-cased filename, or `subagent` occurs in the lower-cased content ending within its first 500 characters |
| Describe.LastGroupStart | scripts/rename-extracts.py:115 | the capture start is the largest admissible position (neither `#` nor newline) in the window, or absent when none is admissible |
| Describe.MessageAt | scripts/rename-extracts.py:115-118 | a captured first message is non-empty, does not start with `#`, and contains no newline |
| Describe.FirstUserMessage | scripts/rename-extracts.py:113-118 | the first message comes from the leftmost `## 👤 User` match; only when that header pattern matches nowhere does the leftmost `## Human` match supply it; absent iff neither matches; a present message is non-empty, single-line and does not start with `#` |
| Describe.FirstTopic | scripts/rename-extracts.py:129-147 | a topic is found iff some rule matches, and it is the slug of the first matching rule in order |
| Describe.FirstTopicAt | scripts/rename-extracts.py:129-147 | when rule `k` matches and no earlier rule does, the topic is rule `k`'s slug |
| Describe.TopicSlugsAreSlugs | scripts/rename-extracts.py:130-147 | every canned topic slug is non-empty and over `[a-z0-9-]` |
| Describe.FirstMessageText | scripts/rename-extracts.py:121 | the examined message text is the stripped captured group cut to its first 200 characters: a prefix of it, of length 200 when it is longer and all of it otherwise |
| Describe.LooksLikeSystem | scripts/rename-extracts.py:124 | a message is treated as system output iff it starts with a backtick or `{`, or contains `Caveat:` anywhere |
| Describe.TopicOf | scripts/rename-extracts.py:121-147 | a system-looking message has no topic; otherwise the topic is absent iff no rule matches the lower-cased message, and is the slug of the first matching rule |
| Describe.ConversationDescription | scripts/rename-extracts.py:113-153 | a non-agent description is the first message's topic when there is a first message and it has a topic, and the project/`conversation` fallback otherwise; it is non-empty slug text |
| Describe.AgentDescription | scripts/rename-extracts.py:105-111 | an agent description is `<sanitized project>-subagent` when the project name is under 30 characters and its slug is longer than two, else `subagent` |
| Describe.FallbackDescription | scripts/rename-extracts.py:149-153 | the fallback is the sanitized project name when one is present and non-empty, else `conversation` |
| Describe.GenerateDescription | scripts/rename-extracts.py:102-153 | the description is non-empty over `[a-z0-9-]`; agent sessions get the `-subagent` form or `subagent`; other sessions get the first message's topic when it has one, and the fallback otherwise |
| Describe.GenerateByRule | scripts/rename-extracts.py:113-147 | outside agent sessions, when the first user message is not system-like and rule `k` is the first rule it matches, the description is rule `k`'s slug |
| Describe.GenerateFallback | scripts/rename-extracts.py:113-153 | outside agent sessions, with no first user message, a system-like one, or one no rule matches, the description is the fallback |
| Describe.PluginBeforeTesting | scripts/rename-extracts.py:138-141 | a message mentioning both `plugin` and `test` (and no earlier topic) is described as `plugin-development`: rules are tried in order |
| Describe.SystemMessageIgnored | scripts/rename-extracts.py:123-125 | a first message starting with a backtick or `{`, or containing `Caveat:`, is ignored and only the fallback applies |
| Describe.TitleChar | scripts/rename-extracts.py:233 | each title character keeps the input's letter identity (ignoring case); a letter is upper case after a non-letter or at the start and lower case after a letter; non-letters are kept |
| Describe.TitleCase | scripts/rename-extracts.py:233 | `str.title()` over ASCII: length unchanged, non-letters kept, each word's first letter upper case and every later letter of the word lower case |
| Describe.Title | scripts/rename-extracts.py:233 | the title has no hyphen, agrees with the slug (hyphens as spaces) ignoring case, keeps non-letters, capitalises each word's first letter and lower-cases the rest of the word |
| Describe.TitleRoundTrip | scripts/rename-extracts.py:233 | lower-casing a slug's title and turning spaces back into hyphens recovers the slug |
| Frontmatter.Fields | scripts/rename-extracts.py:159-190 | the keys appear in the fixed order session_id, title, start_date, end_date, project (only when present), conversation_type, then the constant status and categorisation keys |
| Frontmatter.FieldValues | scripts/rename-extracts.py:159-172 | the block carries the session id, the quoted title, both ISO dates, the quoted project when present, and the conversation type |
| Frontmatter.TrailingWellFormed | scripts/rename-extracts.py:174-187 | the constant trailing fields are one-line, readable, and do not include `project` |
| Frontmatter.ProjectLineIff | scripts/rename-extracts.py:167-168 | there is a `project:` line iff the project name is present and non-empty |
| Frontmatter.CreateFrontmatter | scripts/rename-extracts.py:156-192 | the block starts and ends with a `---` line |
| Frontmatter.ReadRender | scripts/rename-extracts.py:159-192 | reading back a rendered block of well-formed fields recovers the fields, whatever follows |
| Frontmatter.CreateFrontmatterReadsBack | scripts/rename-extracts.py:156-192 | the block `create_frontmatter` writes reads back as exactly its field list |
| Frontmatter.CreateFrontmatterFenced | scripts/rename-extracts.py:156-192 | the block is recognised as a leading fenced block by the replacement step |
| Frontmatter.FenceAt | scripts/rename-extracts.py:199 | a closing-fence match at a line-start `---` ends at the farthest newline (or the text end) reachable through whitespace only, and is absent exactly when no such end exists |
| Frontmatter.StripFrontmatter | scripts/rename-extracts.py:197-201 | the body is the content itself, or the left-stripped text after some closing fence; text not starting with `---` is untouched |
| Frontmatter.StripAtFirstFence | scripts/rename-extracts.py:197-201 | when the content starts with `---`, the first fence line in the text after those three characters ends the old block and the left-stripped rest is the body |
| Frontmatter.StripWithoutClosingFence | scripts/rename-extracts.py:197-201 | content starting with `---` but without a closing fence line is kept whole |
| Frontmatter.AddFrontmatter | scripts/rename-extracts.py:195-203 | the result is the new block followed by exactly the stripped body, which is the content or a left-stripped suffix of it |
| Frontmatter.ReplacesFencedBlock | scripts/rename-extracts.py:198-203 | stripping a freshly prepended block recovers a body with no leading whitespace |
| Frontmatter.AddFrontmatterIdempotent | scripts/rename-extracts.py:195-203 | adding the same block twice equals adding it once, when the body has no leading whitespace |
| Renamer.ResolveEndDate | scripts/rename-extracts.py:226-227 | the end date is never before the start date; it is the latest date when that is not earlier, else the start date |
| Renamer.Candidate | scripts/rename-extracts.py:242-250 | each candidate name extends the base and ends in `.md` |
| Renamer.BaseName | scripts/rename-extracts.py:242 | the base name is the `%m-%d-%Y` start, `--`, the `%m-%d-%Y` end, `-` and the description, in fixed positions |
| Renamer.CandidateInjective | scripts/rename-extracts.py:246-250 | distinct counters give distinct names, so the collision loop never retries a name |
| Renamer.CandidateCarriesDates | scripts/rename-extracts.py:241-242 | every candidate is `MM-DD-YYYY--MM-DD-YYYY-<description>[-k].md` whose fields read back as the start and end dates |
| Renamer.ChooseTargetName | scripts/rename-extracts.py:245-250 | the chosen name is the first candidate that is absent or the file's own name; every earlier candidate is taken by another file; at most one try per directory entry |
| Renamer.PlanFile | scripts/rename-extracts.py:214-236 | skips exactly when the id or the start date is missing, aborts exactly on an impossible header date, and otherwise plans with the extracted project, description and agent flag, and an end date that is the latest date when one exists and is not before the start, else the start date |
| Renamer.PlanFrom | scripts/rename-extracts.py:219-236 | the plan keeps the id and start; its end is the latest date when that is not earlier than the start and the start otherwise; project, description and agent flag are the extracted ones |
| Renamer.PlanFieldsNewlineFree | scripts/rename-extracts.py:214-236 | the id, title and project of a plan are single-line, so the block is well formed |
| Renamer.WrittenBlockReadsBack | scripts/rename-extracts.py:239-267 | the written file's frontmatter reads back as the planned fields |
| Renamer.WrittenBodyKept | scripts/rename-extracts.py:267 | the written file's body is the original's body with any old frontmatter removed |
| Renamer.Apply | scripts/rename-extracts.py:245-274 | a dry run changes nothing; otherwise the target holds the new text, the original name disappears unless it is the target, and every other file is untouched |
| Renamer.ProcessFile | scripts/rename-extracts.py:206-279 | skips and aborts leave the directory unchanged; a plan renames to the first free candidate, writing only that entry and removing only the original |
| Reconciler.FirstSegment | scripts/update-extracts.py:46 | the segment is the prefix up to (not including) the first `-` |
| Reconciler.ContentId | scripts/update-extracts.py:35-47 | absent iff the content has no id; otherwise a hyphen-free prefix of the full capture ending at its first `-` (possibly empty) |
| Reconciler.HexRun | scripts/update-extracts.py:52-56 | a greedy lower-case hex run of at least the required length, maximal at its end |
| Reconciler.ExportIdAt | scripts/update-extracts.py:52 | the dated-export filename id is lower-case hex of length ≥ 8 after `claude-conversation-` and a date |
| Reconciler.AgentIdAt | scripts/update-extracts.py:56 | the agent filename id is lower-case hex of length ≥ 2 after `agent-` |
| Reconciler.FilenameId | scripts/update-extracts.py:50-59 | the dated-export pattern wins; else the agent pattern; absent iff neither matches anywhere |
| Reconciler.ResolveId | scripts/update-extracts.py:96-99 | the id is non-empty; a non-empty content id wins, otherwise the filename id |
| Reconciler.Between | scripts/update-extracts.py:64-69 | absent iff a marker is missing or the first end marker is not after the first start marker; otherwise the slice from the first start through the first end marker |
| Reconciler.ExtractUserNotes | scripts/update-extracts.py:62-69 | the same, for the literal notes markers; a present result starts with the start marker and ends with the end marker |
| Reconciler.NotesMarkers | scripts/update-extracts.py:31-32 | the two markers are single-line, the end marker is shorter and opens with `<`, which does not recur inside the start marker |
| Reconciler.MergeWithUserNotes | scripts/update-extracts.py:72-78 | identity without notes or with empty notes; otherwise the result is the right-stripped new content, one blank line, the notes and a final newline |
| Reconciler.BlockRoundTrip | scripts/update-extracts.py:62-78 | for any marker pair, extracting a merged block gives it back when the new content has neither marker |
| Reconciler.NotesRoundTrip | scripts/update-extracts.py:62-78 | extracting notes from merged content returns exactly the merged notes block |
| Reconciler.FoldLastWins | scripts/update-extracts.py:101-103 | an entry no later entry shares an id with is the one the fold keeps |
| Reconciler.BuildIndex | scripts/update-extracts.py:81-105 | every index entry names a listed archive file whose id is the key and whose notes are that file's; every listed file with an id has its id in the index |
| Reconciler.IndexSound | scripts/update-extracts.py:81-105 | every indexed entry names a listed archive file whose id is the key and whose notes are that file's notes |
| Reconciler.IndexLastWins | scripts/update-extracts.py:89-103 | when two files share an id, the later one in iteration order is indexed |
| Reconciler.IndexComplete | scripts/update-extracts.py:89-103 | every listed file with an id has that id in the index |
| Reconciler.MergedWithoutNotes | scripts/update-extracts.py:171-173 | removing the notes block from merged content and right-stripping leaves the right-stripped new content |
| Reconciler.NotesIgnored | scripts/update-extracts.py:170-175 | against a file holding merged notes, a change is detected iff the right-stripped contents differ |
| Reconciler.RewriteThenUnchanged | scripts/update-extracts.py:162-184 | after a rewrite the file's notes are the same notes, and re-running with the same content reports it unchanged |
| Reconciler.TrailingWhitespaceIgnored | scripts/update-extracts.py:175 | trailing whitespace on the new content (or on a notes-free old file) does not change the decision |
| Reconciler.OldWithoutNotes | scripts/update-extracts.py:170-173 | without notes, or when the notes do not occur, the old text is used as is; otherwise at least one copy of the notes is removed and trailing whitespace dropped |
| Reconciler.Changed | scripts/update-extracts.py:170-175 | without notes, a change means the right-stripped texts differ; with notes that occur in the old text, it means the new text and the old text with every occurrence removed differ once right-stripped |
| Reconciler.Matched | scripts/update-extracts.py:144 | exactly the extracted files whose names match `claude-conversation-*.md` are processed; one file is kept iff it matches |
| Reconciler.MatchedAppend | scripts/update-extracts.py:144 | matching distributes over concatenation, so the processed files are the matching ones in listing order, repeats included |
| Reconciler.KindsPartition | scripts/update-extracts.py:149-190 | every extracted file is of exactly one kind: no id, a session the index lacks, or an indexed one |
| Reconciler.Decide | scripts/update-extracts.py:153-190 | skip iff no id; copy verbatim iff the id is not indexed; otherwise update iff changed, at the indexed path, with the merged text, counting kept notes iff notes existed |
| Reconciler.CountsStep | scripts/update-extracts.py:157-190 | each file increments exactly the counter of its kind, and notes are counted only with updates |
| Reconciler.Tally | scripts/update-extracts.py:157-190 | each decision raises exactly the counter of its action, by one, and leaves the other three as they were, so the counters account for one more file; the notes counter rises by at most one, and only for an update that kept notes |
| Reconciler.ProgressStep | scripts/update-extracts.py:149-190 | one loop iteration keeps the counts, the write discipline and the verbatim copies invariant |
| Reconciler.DecideAll | scripts/update-extracts.py:149-190 | the loop over the matched files keeps the progress invariant up to the last file |
| Reconciler.Finished | scripts/update-extracts.py:147-192 | at loop exit the counts match the kinds and sum to the number of files, only indexed or copied names changed, and unrepeated copies are verbatim |
| Reconciler.UpdateExtracts | scripts/update-extracts.py:127-192 | a failed extraction yields an error; otherwise the counts partition the files, notes-preserved ≤ updated, no file is removed, only indexed paths or new-session names change, and a new session's file not overwritten later is in the archive verbatim |

## Left out

- Reading and writing files, `glob`, `shutil.copy2` metadata, printing, the command line (`main`), and Windows console re-encoding are not modelled. The directory is a map and the enumeration order of the archive is a parameter (`order`).
- `run_extraction` (the external `claude-extract` process, its environment and the temporary directory) is replaced by an input: the extracted files, or `None` for a failed extraction.
- Read errors are left out: `get_existing_files` skips unreadable files, and the model treats every listed file as readable.
- The renamer's outer loop over the sorted `*.md` files, and whole-run idempotence, are not modelled: a sanitized project name containing `subagent` can reach the first 500 characters through the title and change the agent check on a second run.
- `strptime` raising on an impossible header date is an uncaught exception in the source; the model turns it into an `Aborted` outcome that leaves the directory unchanged.
- `\d` and the hexadecimal classes match ASCII digits only; Python's `\d` also matches other Unicode decimal digits, which the model does not.
- Upper/lower case and `str.title()` follow ASCII rules only; whitespace follows Python's `isspace` set. Non-ASCII case mappings are not modelled.
- Years are written with four digits; `strftime` padding for years below 1000 is not modelled.
- Reconciler.UpdateExtracts: the copy guarantee is stated only for a new session's file whose name is neither an indexed path nor repeated later in the run, because a later copy or update with the same name overwrites it, exactly as the source does.
- Reconciler.RewriteThenUnchanged: requires the new content to contain neither notes marker and the notes to be a well-formed block, because otherwise the source's textual `replace` and marker search can see a different block.

=== FILE: dates.dfy ===
/**
 * Calendar dates as Python's `datetime` sees them: validity, ordering,
 * decimal digit runs, and the `strftime` layouts the renamer writes.
 * Years are rendered with four digits.
 */
module Dates {
  import opened Text

  datatype Date = Date(year: int, month: int, day: int)

  predicate IsLeap(y: int) {
    y % 4 == 0 && (y % 100 != 0 || y % 400 == 0)
  }

  function DaysInMonth(y: int, m: int): (n: int)
    requires 1 <= m <= 12
    ensures 28 <= n <= 31
  {
    if m == 2 then (if IsLeap(y) then 29 else 28)
    else if m == 4 || m == 6 || m == 9 || m == 11 then 30
    else 31
  }

  /** A date `datetime(year, month, day)` accepts: MINYEAR is 1, MAXYEAR is 9999. */
  predicate Valid(d: Date) {
    && 1 <= d.year <= 9999
    && 1 <= d.month <= 12
    && 1 <= d.day <= DaysInMonth(d.year, d.month)
  }

  /** `a < b` on `datetime` values at midnight: lexicographic on (year, month, day). */
  predicate Before(a: Date, b: Date) {
    || a.year < b.year
    || (a.year == b.year && a.month < b.month)
    || (a.year == b.year && a.month == b.month && a.day < b.day)
  }

  /** `a <= b` */
  predicate NotAfter(a: Date, b: Date) {
    !Before(b, a)
  }

  lemma NotAfterIsTotalOrder(a: Date, b: Date, c: Date)
    ensures NotAfter(a, a)
    ensures NotAfter(a, b) || NotAfter(b, a)
    ensures NotAfter(a, b) && NotAfter(b, a) ==> a == b
    ensures NotAfter(a, b) && NotAfter(b, c) ==> NotAfter(a, c)
  {
  }

  function DigitChar(n: int): (c: char)
    requires 0 <= n <= 9
    ensures IsDigit(c)
  {
    ('0' as int + n) as char
  }

  function DigitValue(c: char): (n: int)
    requires IsDigit(c)
    ensures 0 <= n <= 9 && DigitChar(n) == c
  {
    c as int - '0' as int
  }

  /** `s[i..i+n]` is a run of ASCII digits (`\d{n}`). */
  predicate DigitsAt(s: string, i: nat, n: nat) {
    i + n <= |s| && forall t :: i <= t < i + n ==> IsDigit(s[t])
  }

  /** `int(s[i..i+n])` for a digit run. */
  function DecimalAt(s: string, i: nat, n: nat): (v: int)
    requires DigitsAt(s, i, n)
    ensures 0 <= v
  {
    if n == 0 then 0 else DecimalAt(s, i, n - 1) * 10 + DigitValue(s[i + n - 1])
  }

  /** The value of a digit run depends only on its characters. */
  lemma {:induction false} DecimalAtSame(s: string, i: nat, t: string, j: nat, n: nat)
    requires DigitsAt(s, i, n) && j + n <= |t| && s[i..i + n] == t[j..j + n]
    ensures DigitsAt(t, j, n) && DecimalAt(s, i, n) == DecimalAt(t, j, n)
  {
    forall k | j <= k < j + n ensures IsDigit(t[k]) {
      assert t[k] == t[j..j + n][k - j] == s[i..i + n][k - j] == s[i + k - j];
    }
    if n > 0 {
      assert s[i..i + n - 1] == s[i..i + n][..n - 1];
      assert t[j..j + n - 1] == t[j..j + n][..n - 1];
      DecimalAtSame(s, i, t, j, n - 1);
      assert s[i + n - 1] == s[i..i + n][n - 1];
      assert t[j + n - 1] == t[j..j + n][n - 1];
    }
  }

  /** Two-digit zero-padded decimal (`%m`, `%d`). */
  function Pad2(n: int): (r: string)
    requires 0 <= n < 100
    ensures |r| == 2 && DigitsAt(r, 0, 2) && DecimalAt(r, 0, 2) == n
  {
    var r := [DigitChar(n / 10), DigitChar(n % 10)];
    assert DecimalAt(r, 0, 1) == n / 10;
    assert DecimalAt(r, 0, 2) == (n / 10) * 10 + n % 10;
    r
  }

  /** Four-digit zero-padded decimal (`%Y` for the years this model renders). */
  function Pad4(n: int): (r: string)
    requires 0 <= n < 10000
    ensures |r| == 4 && DigitsAt(r, 0, 4) && DecimalAt(r, 0, 4) == n
  {
    var hi := Pad2(n / 100);
    var lo := Pad2(n % 100);
    var r := hi + lo;
    DecimalAtSame(hi, 0, r, 0, 2);
    DecimalAtSame(lo, 0, r, 2, 2);
    assert DecimalAt(r, 0, 4) == (DecimalAt(r, 0, 2) * 10 + DigitValue(r[2])) * 10 + DigitValue(r[3]);
    assert DecimalAt(r, 2, 2) == DigitValue(r[2]) * 10 + DigitValue(r[3]);
    r
  }

  /** `\d{4}-\d{2}-\d{2}` matches at `i`. */
  predicate DateShapeAt(s: string, i: nat) {
    && i + 10 <= |s|
    && DigitsAt(s, i, 4) && s[i + 4] == '-'
    && DigitsAt(s, i + 5, 2) && s[i + 7] == '-'
    && DigitsAt(s, i + 8, 2)
  }

  /** The (year, month, day) groups of a date-shaped match, unvalidated. */
  function DateAt(s: string, i: nat): Date
    requires DateShapeAt(s, i)
  {
    Date(DecimalAt(s, i, 4), DecimalAt(s, i + 5, 2), DecimalAt(s, i + 8, 2))
  }

  /** `strftime('%Y-%m-%d')`; reading it back with the date pattern gives the same date. */
  function Iso(d: Date): (r: string)
    requires Valid(d)
    ensures |r| == 10 && DateShapeAt(r, 0) && DateAt(r, 0) == d
  {
    var y := Pad4(d.year);
    var m := Pad2(d.month);
    var dd := Pad2(d.day);
    var r := y + "-" + m + "-" + dd;
    DecimalAtSame(y, 0, r, 0, 4);
    DecimalAtSame(m, 0, r, 5, 2);
    DecimalAtSame(dd, 0, r, 8, 2);
    r
  }

  /** `strftime('%m-%d-%Y')`; its three fields read back as month, day and year. */
  function Mdy(d: Date): (r: string)
    requires Valid(d)
    ensures |r| == 10 && r[2] == '-' && r[5] == '-'
    ensures DigitsAt(r, 0, 2) && DigitsAt(r, 3, 2) && DigitsAt(r, 6, 4)
    ensures DecimalAt(r, 0, 2) == d.month && DecimalAt(r, 3, 2) == d.day && DecimalAt(r, 6, 4) == d.year
  {
    var m := Pad2(d.month);
    var dd := Pad2(d.day);
    var y := Pad4(d.year);
    var r := m + "-" + dd + "-" + y;
    DecimalAtSame(m, 0, r, 0, 2);
    DecimalAtSame(dd, 0, r, 3, 2);
    DecimalAtSame(y, 0, r, 6, 4);
    r
  }

  /** `str(n)` for a non-negative integer. */
  function Itos(n: nat): (r: string)
    ensures |r| >= 1 && DigitsAt(r, 0, |r|)
    ensures |r| == 1 || r[0] != '0'
  {
    if n < 10 then [DigitChar(n)] else Itos(n / 10) + [DigitChar(n % 10)]
  }

  /** Reading `str(n)` back as a decimal gives `n`. */
  lemma {:induction false} ItosRoundTrip(n: nat)
    ensures DecimalAt(Itos(n), 0, |Itos(n)|) == n
  {
    var r := Itos(n);
    if n >= 10 {
      var p := Itos(n / 10);
      ItosRoundTrip(n / 10);
      assert r == p + [DigitChar(n % 10)];
      assert r[..|p|] == p;
      DecimalAtSame(p, 0, r, 0, |p|);
      assert DecimalAt(r, 0, |r|) == DecimalAt(r, 0, |p|) * 10 + DigitValue(r[|p|]);
    }
  }

  /** Distinct numbers have distinct decimal spellings. */
  lemma ItosInjective(a: nat, b: nat)
    requires Itos(a) == Itos(b)
    ensures a == b
  {
    ItosRoundTrip(a);
    ItosRoundTrip(b);
  }
}

=== FILE: describe.dfy ===
/**
 * The description slug and title of the renamer (scripts/rename-extracts.py):
 * `sanitize_description`, `is_agent_session`, the first-user-message scan,
 * the ordered topic rules of `generate_description`, and the title-casing of
 * the slug.
 */
module Describe {
  import opened Wrappers
  import opened Text
  import opened Search

  // ------------------------------------------------------------------ sanitize

  /** `[a-z0-9-]` */
  predicate IsSlugChar(c: char) {
    IsLowerAlnum(c) || c == '-'
  }

  predicate IsSlugText(s: string) {
    forall k :: 0 <= k < |s| ==> IsSlugChar(s[k])
  }

  predicate NoDoubleHyphen(s: string) {
    forall k :: 0 < k < |s| ==> !(s[k - 1] == '-' && s[k] == '-')
  }

  /** A slug `sanitize_description` hands back unchanged. */
  predicate Canonical(s: string) {
    && 0 < |s| <= 50
    && IsSlugText(s) && NoDoubleHyphen(s)
    && s[0] != '-' && s[|s| - 1] != '-'
  }

  function HyphenChar(c: char): char {
    if IsSlugChar(c) then c else '-'
  }

  /** `re.sub(r'[^a-z0-9-]', '-', s)` */
  function Hyphenate(s: string): (r: string)
    ensures |r| == |s| && IsSlugText(r)
    ensures forall k :: 0 <= k < |s| ==> r[k] == HyphenChar(s[k])
  {
    if s == [] then [] else [HyphenChar(s[0])] + Hyphenate(s[1..])
  }

  /** `re.sub(r'-+', '-', s)` */
  function Collapse(s: string): (r: string)
    ensures |r| <= |s| && (|s| > 0 <==> |r| > 0)
    ensures |s| > 0 ==> r[0] == s[0] && r[|r| - 1] == s[|s| - 1]
    ensures IsSlugText(s) ==> IsSlugText(r)
    ensures NoDoubleHyphen(r)
  {
    if |s| <= 1 then s
    else if s[0] == '-' && s[1] == '-' then Collapse(s[1..])
    else [s[0]] + Collapse(s[1..])
  }

  /** A hyphen whose left neighbour is also a hyphen: the ones a run of hyphens loses. */
  predicate RepeatHyphen(s: string, k: nat)
    requires k < |s|
  {
    k > 0 && s[k - 1] == '-' && s[k] == '-'
  }

  /** The characters of `s[k..]` that are not repeat hyphens, in order. */
  function DropRepeats(s: string, k: nat): string
    requires k <= |s|
    decreases |s| - k
  {
    if k == |s| then [] else (if RepeatHyphen(s, k) then [] else [s[k]]) + DropRepeats(s, k + 1)
  }

  /** From position `k` on, collapsing agrees with dropping repeat hyphens (minus the run's head when `k` is inside one). */
  lemma {:induction false} CollapseFrom(s: string, k: nat)
    requires k <= |s|
    decreases |s| - k
    ensures k < |s| && RepeatHyphen(s, k) ==> |Collapse(s[k..])| > 0 && DropRepeats(s, k) == Collapse(s[k..])[1..]
    ensures !(k < |s| && RepeatHyphen(s, k)) ==> DropRepeats(s, k) == Collapse(s[k..])
  {
    if k < |s| {
      var t := s[k..];
      if |t| > 1 {
        CollapseFrom(s, k + 1);
        assert t[1..] == s[k + 1..];
      }
    }
  }

  /** Every run of hyphens becomes a single hyphen: exactly the repeat hyphens are removed. */
  lemma CollapseDropsRepeats(s: string)
    ensures Collapse(s) == DropRepeats(s, 0)
  {
    CollapseFrom(s, 0);
    assert s[0..] == s;
  }

  /** `s.lstrip('-')` */
  function TrimStart(s: string): (r: string)
    ensures |r| <= |s| && r == s[|s| - |r|..]
    ensures forall j :: 0 <= j < |s| - |r| ==> s[j] == '-'
    ensures r == [] || r[0] != '-'
  {
    if |s| > 0 && s[0] == '-' then
      var r := TrimStart(s[1..]);
      assert r == s[|s| - |r|..];
      r
    else
      s
  }

  /** `s.rstrip('-')` */
  function TrimEnd(s: string): (r: string)
    ensures |r| <= |s| && r == s[..|r|]
    ensures forall j :: |r| <= j < |s| ==> s[j] == '-'
    ensures r == [] || r[|r| - 1] != '-'
  {
    if |s| > 0 && s[|s| - 1] == '-' then TrimEnd(s[..|s| - 1]) else s
  }

  /** Everything of `s` before `a` and from `b` on is a hyphen. */
  predicate OnlyHyphensOutside(s: string, a: nat, b: nat)
    requires a <= b <= |s|
  {
    (forall j :: 0 <= j < a ==> s[j] == '-') && (forall j :: b <= j < |s| ==> s[j] == '-')
  }

  /** `r` is a slice of `s` with only hyphens cut away on either side. */
  predicate HyphenTrimmed(s: string, r: string) {
    exists a, b :: 0 <= a <= b <= |s| && r == s[a..b] && OnlyHyphensOutside(s, a, b)
  }

  /** `s.strip('-')`: the slice of `s` left when the hyphens at both ends are cut. */
  function TrimHyphens(s: string): (r: string)
    ensures HyphenTrimmed(s, r)
    ensures r == [] || (r[0] != '-' && r[|r| - 1] != '-')
  {
    var t := TrimStart(s);
    var r := TrimEnd(t);
    var a := |s| - |t|;
    assert r == s[a..a + |r|];
    forall j | a + |r| <= j < |s| ensures s[j] == '-' {
      assert s[j] == t[j - a];
    }
    assert OnlyHyphensOutside(s, a, a + |r|);
    r
  }

  /** Slices keep the slug alphabet and the absence of `--`. */
  lemma SliceKeepsSlugShape(s: string, a: nat, b: nat)
    requires a <= b <= |s| && IsSlugText(s) && NoDoubleHyphen(s)
    ensures IsSlugText(s[a..b]) && NoDoubleHyphen(s[a..b])
  {
    forall k | 0 < k < b - a ensures !(s[a..b][k - 1] == '-' && s[a..b][k] == '-') {
      assert s[a..b][k - 1] == s[a + k - 1] && s[a..b][k] == s[a + k];
    }
  }

  /** Lower-casing, hyphenating, collapsing and trimming, before truncation. */
  function Slug(desc: string): (r: string)
    ensures IsSlugText(r) && NoDoubleHyphen(r)
    ensures r == [] || (r[0] != '-' && r[|r| - 1] != '-')
  {
    var c := Collapse(Hyphenate(Lower(desc)));
    var r := TrimHyphens(c);
    var a, b :| 0 <= a <= b <= |c| && r == c[a..b] && OnlyHyphensOutside(c, a, b);
    SliceKeepsSlugShape(c, a, b);
    r
  }

  /**
   * The slug is the lower-cased, hyphenated text with every repeat hyphen
   * dropped and the hyphens at both ends cut.
   */
  lemma SlugSqueezes(desc: string)
    ensures HyphenTrimmed(DropRepeats(Hyphenate(Lower(desc)), 0), Slug(desc))
  {
    var h := Hyphenate(Lower(desc));
    CollapseDropsRepeats(h);
    var c := Collapse(h);
    assert Slug(desc) == TrimHyphens(c);
  }

  /** The letters and digits of `s`, in order. */
  function Alnums(s: string): string {
    if s == [] then [] else (if IsLowerAlnum(s[0]) then [s[0]] else []) + Alnums(s[1..])
  }

  lemma {:induction false} AlnumsAppend(a: string, b: string)
    ensures Alnums(a + b) == Alnums(a) + Alnums(b)
  {
    if a != [] {
      assert (a + b)[0] == a[0];
      assert (a + b)[1..] == a[1..] + b;
      AlnumsAppend(a[1..], b);
    } else {
      assert a + b == b;
    }
  }

  lemma {:induction false} AlnumsHyphenate(s: string)
    ensures Alnums(Hyphenate(s)) == Alnums(s)
  {
    if s != [] {
      AlnumsHyphenate(s[1..]);
      assert Hyphenate(s)[1..] == Hyphenate(s[1..]);
    }
  }

  lemma {:induction false} AlnumsCollapse(s: string)
    ensures Alnums(Collapse(s)) == Alnums(s)
  {
    if |s| > 1 {
      AlnumsCollapse(s[1..]);
      if !(s[0] == '-' && s[1] == '-') {
        AlnumsAppend([s[0]], Collapse(s[1..]));
        assert ([s[0]] + Collapse(s[1..]))[1..] == Collapse(s[1..]);
      }
    }
  }

  lemma {:induction false} AlnumsTrimStart(s: string)
    ensures Alnums(TrimStart(s)) == Alnums(s)
  {
    if |s| > 0 && s[0] == '-' {
      AlnumsTrimStart(s[1..]);
    }
  }

  lemma {:induction false} AlnumsTrimEnd(s: string)
    ensures Alnums(TrimEnd(s)) == Alnums(s)
  {
    if |s| > 0 && s[|s| - 1] == '-' {
      AlnumsTrimEnd(s[..|s| - 1]);
      assert s == s[..|s| - 1] + [s[|s| - 1]];
      AlnumsAppend(s[..|s| - 1], [s[|s| - 1]]);
    }
  }

  /** The slug keeps every letter and digit of the lower-cased input, in order. */
  lemma SlugKeepsAlnums(desc: string)
    ensures Alnums(Slug(desc)) == Alnums(Lower(desc))
  {
    var h := Hyphenate(Lower(desc));
    AlnumsHyphenate(Lower(desc));
    AlnumsCollapse(h);
    AlnumsTrimStart(Collapse(h));
    AlnumsTrimEnd(TrimStart(Collapse(h)));
  }

  /** A non-empty slug starts with a letter or digit. */
  lemma SlugTextHasAlnum(s: string)
    requires IsSlugText(s) && s != [] && s[0] != '-'
    ensures Alnums(s) != []
  {
  }

  /** The slug is empty exactly when no character lower-cases to `[a-z0-9]`. */
  lemma SlugEmptyIff(desc: string)
    ensures Slug(desc) == [] <==> forall k :: 0 <= k < |desc| ==> !IsLowerAlnum(LowerChar(desc[k]))
  {
    SlugKeepsAlnums(desc);
    AlnumsEmptyIff(Lower(desc));
    if Slug(desc) != [] {
      SlugTextHasAlnum(Slug(desc));
    }
  }

  lemma {:induction false} AlnumsEmptyIff(s: string)
    ensures Alnums(s) == [] <==> forall k :: 0 <= k < |s| ==> !IsLowerAlnum(s[k])
  {
    if s != [] {
      AlnumsEmptyIff(s[1..]);
      assert forall k :: 1 <= k < |s| ==> s[k] == s[1..][k - 1];
    }
  }

  /** A string already in slug shape goes through every step unchanged. */
  lemma SlugOfSlugShape(s: string)
    requires IsSlugText(s) && NoDoubleHyphen(s)
    requires s == [] || (s[0] != '-' && s[|s| - 1] != '-')
    ensures Slug(s) == s
  {
    assert Lower(s) == s;
    assert Hyphenate(s) == s;
    CollapseIdentity(s);
  }

  lemma CanonicalSlug(desc: string)
    ensures Canonical(desc) ==> Slug(desc) == desc
  {
    if Canonical(desc) {
      SlugOfSlugShape(desc);
    }
  }

  lemma {:induction false} CollapseIdentity(s: string)
    requires NoDoubleHyphen(s)
    ensures Collapse(s) == s
  {
    if |s| > 1 {
      assert NoDoubleHyphen(s[1..]) by {
        forall k | 0 < k < |s| - 1 ensures !(s[1..][k - 1] == '-' && s[1..][k] == '-') {
          assert s[1..][k - 1] == s[k] && s[1..][k] == s[k + 1];
        }
      }
      CollapseIdentity(s[1..]);
      assert !(s[0] == '-' && s[1] == '-');
      assert Collapse(s) == [s[0]] + Collapse(s[1..]);
      assert [s[0]] + s[1..] == s;
    }
  }

  /** `sanitize_description` */
  function SanitizeDescription(desc: string): (r: string)
    ensures 0 < |r| <= 50 && IsSlugText(r) && NoDoubleHyphen(r) && r[0] != '-'
    ensures (forall k :: 0 <= k < |desc| ==> !IsLowerAlnum(LowerChar(desc[k]))) ==> r == "conversation"
    ensures Slug(desc) != [] ==> |r| <= |Slug(desc)| && r == Slug(desc)[..|r|]
    ensures Slug(desc) != [] ==> |r| == if |Slug(desc)| > 50 then 50 else |Slug(desc)|
    ensures Slug(desc) == [] ==> r == "conversation"
    ensures Canonical(desc) ==> r == desc
  {
    var t := Slug(desc);
    SlugEmptyIff(desc);
    CanonicalSlug(desc);
    if |t| == 0 then
      DefaultIsSlug();
      "conversation"
    else
      var n := if |t| > 50 then 50 else |t|;
      SliceKeepsSlugShape(t, 0, n);
      assert t[0..n] == t[..n];
      t[..n]
  }

  /** The default description is itself a well-formed slug. */
  lemma DefaultIsSlug()
    ensures IsSlugText("conversation") && NoDoubleHyphen("conversation")
  {
  }

  /** Forty-nine letters, a hyphen and a letter: already a slug. */
  lemma HyphenSampleIsSlug(a: string)
    requires |a| == 49 && forall k :: 0 <= k < 49 ==> a[k] == 'a'
    ensures Slug(a + "-b") == a + "-b"
  {
    var s := a + "-b";
    assert forall k :: 0 <= k < 49 ==> s[k] == 'a';
    assert s[49] == '-' && s[50] == 'b';
    SlugOfSlugShape(s);
  }

  /** Truncation happens after trimming, so the result can end with a hyphen. */
  lemma SanitizeCanEndWithHyphen()
    ensures var a := seq(49, _ => 'a');
            SanitizeDescription(a + "-b") == a + "-"
  {
    var a := seq(49, _ => 'a');
    HyphenSampleIsSlug(a);
    assert (a + "-b")[..50] == a + "-";
  }

  // ------------------------------------------------------------- agent check

  /** `is_agent_session` */
  function IsAgentSession(content: string, filename: string): (r: bool)
    ensures r <==> (exists i :: OccursAt(Lower(filename), "agent-", i))
                   || (exists i :: i + 8 <= 500 && OccursAt(Lower(content), "subagent", i))
  {
    var head := Lower(content);
    var n := if |head| < 500 then |head| else 500;
    ContainsIff(Lower(filename), "agent-");
    ContainsIff(head[..n], "subagent");
    forall i | OccursAt(head[..n], "subagent", i) ensures i + 8 <= 500 && OccursAt(head, "subagent", i) {
      OccursInPrefix(head, n, "subagent", i);
    }
    forall i | i + 8 <= 500 && OccursAt(head, "subagent", i) ensures OccursAt(head[..n], "subagent", i) {
      OccursInSlice(head, "subagent", 0, n, i);
      assert head[0..n] == head[..n];
    }
    Contains(Lower(filename), "agent-") || Contains(head[..n], "subagent")
  }

  // ------------------------------------------------------- first user message

  const UserHeader := "## \U{1F464} User"
  const HumanHeader := "## Human"

  /**
   * The capture start of `([^#\n][^\n]*)` once the header matched: the
   * largest position in `(lo, hi]` holding neither `#` nor a newline.
   */
  function LastGroupStart(s: string, lo: nat, hi: nat): (r: Option<nat>)
    decreases hi
    ensures r.Some? ==> lo < r.value <= hi && r.value < |s| && s[r.value] != '#' && s[r.value] != '\n'
    ensures r.Some? ==> forall g :: r.value < g <= hi && g < |s| ==> s[g] == '#' || s[g] == '\n'
    ensures r.None? ==> forall g :: lo < g <= hi && g < |s| ==> s[g] == '#' || s[g] == '\n'
  {
    if hi <= lo then None
    else if hi < |s| && s[hi] != '#' && s[hi] != '\n' then Some(hi)
    else LastGroupStart(s, lo, hi - 1)
  }

  predicate NotNewline(c: char) { c != '\n' }

  /**
   * `header\s*\n\s*([^#\n][^\n]*)` anchored at `i`. Backtracking over the two
   * whitespace runs tries the newline positions of the run after the header
   * from the last one down, and within each the capture start from the end
   * of the run down; the first success is therefore the largest admissible
   * start after the first newline of the run.
   */
  function MessageAt(header: string, s: string, i: nat): (r: Option<string>)
    ensures r.Some? ==> |r.value| > 0 && r.value[0] != '#' && '\n' !in r.value
  {
    if !OccursAt(s, header, i) then None
    else
      var h := i + |header|;
      var w := SpanEnd(s, h, IsSpace);
      match FindFrom(s[..w], "\n", h)
      case None => None
      case Some(a) =>
        match LastGroupStart(s, a, w)
        case None => None
        case Some(g) =>
          var e := SpanEnd(s, g, NotNewline);
          Some(s[g..e])
  }

  function UserMessageAt(s: string, i: nat): Option<string> {
    MessageAt(UserHeader, s, i)
  }

  function HumanMessageAt(s: string, i: nat): Option<string> {
    MessageAt(HumanHeader, s, i)
  }

  /** The `## 👤 User` search, falling back to the `## Human` search. */
  function FirstUserMessage(content: string): (r: Option<string>)
    ensures r.Some? ==> |r.value| > 0 && r.value[0] != '#' && '\n' !in r.value
    ensures forall p :: LeftmostAt(content, UserMessageAt, p) ==> r == UserMessageAt(content, p)
    ensures forall p :: NoMatch(content, UserMessageAt) && LeftmostAt(content, HumanMessageAt, p) ==>
              r == HumanMessageAt(content, p)
    ensures r.None? <==> NoMatch(content, UserMessageAt) && NoMatch(content, HumanMessageAt)
  {
    match First(content, UserMessageAt)
    case Some(m) => Some(m)
    case None => First(content, HumanMessageAt)
  }

  // -------------------------------------------------------------- topic rules

  /**
   * A topic rule: every clause needs one of its words in the lower-cased
   * message (`a in m and (b in m or c in m)` is `[[a], [b, c]]`).
   */
  datatype TopicRule = TopicRule(clauses: seq<seq<string>>, slug: string)

  /** The topic rules of `generate_description`, in priority order. */
  const TopicRules: seq<TopicRule> := [
    TopicRule([["excel"], ["google", "sheet"]], "excel-to-sheets-migration"),
    TopicRule([["mitel"]], "mitel-skill-development"),
    TopicRule([["read"], ["ai"]], "read-ai-clone"),
    TopicRule([["milestone", "powershell"]], "milestone-powershell"),
    TopicRule([["plugin"]], "plugin-development"),
    TopicRule([["test"]], "testing"),
    TopicRule([["bug", "fix"]], "bugfix"),
    TopicRule([["feature"]], "feature-development"),
    TopicRule([["extract"], ["conversation"]], "conversation-extraction")
  ]

  predicate AnyIn(msg: string, words: seq<string>) {
    exists j :: 0 <= j < |words| && Contains(msg, words[j])
  }

  predicate RuleMatches(msg: string, rule: TopicRule) {
    forall i :: 0 <= i < |rule.clauses| ==> AnyIn(msg, rule.clauses[i])
  }

  /** Rule `k` is the first of `rules` that matches `msg`. */
  predicate FirstRule(msg: string, rules: seq<TopicRule>, k: nat) {
    k < |rules| && RuleMatches(msg, rules[k]) && forall j :: 0 <= j < k ==> !RuleMatches(msg, rules[j])
  }

  /** The slug of the first rule that matches, trying the rules in order. */
  function FirstTopic(msg: string, rules: seq<TopicRule>): (r: Option<string>)
    ensures r.Some? <==> exists k :: 0 <= k < |rules| && RuleMatches(msg, rules[k])
    ensures r.Some? ==> exists k :: 0 <= k < |rules| && RuleMatches(msg, rules[k])
                           && r.value == rules[k].slug
                           && forall j :: 0 <= j < k ==> !RuleMatches(msg, rules[j])
  {
    if rules == [] then None
    else
      assert forall k :: 1 <= k < |rules| ==> rules[k] == rules[1..][k - 1];
      if RuleMatches(msg, rules[0]) then Some(rules[0].slug) else FirstTopic(msg, rules[1..])
  }

  /** The slug alphabet check on the literals, three at a time so each check stays small. */
  lemma SlugLiteralA(t: string, k: nat)
    requires k < 3 && k < |TopicRules| && t == TopicRules[k].slug
    ensures |t| > 0 && IsSlugText(t)
  {
    if k == 0 { assert t == "excel-to-sheets-migration"; }
    else if k == 1 { assert t == "mitel-skill-development"; }
    else { assert t == "read-ai-clone"; }
  }

  lemma SlugLiteralB(t: string, k: nat)
    requires 3 <= k < 6 && k < |TopicRules| && t == TopicRules[k].slug
    ensures |t| > 0 && IsSlugText(t)
  {
    if k == 3 { assert t == "milestone-powershell"; }
    else if k == 4 { assert t == "plugin-development"; }
    else { assert t == "testing"; }
  }

  lemma SlugLiteralC(t: string, k: nat)
    requires 6 <= k < |TopicRules| && t == TopicRules[k].slug
    ensures |t| > 0 && IsSlugText(t)
  {
    if k == 6 { assert t == "bugfix"; }
    else if k == 7 { assert t == "feature-development"; }
    else { assert t == "conversation-extraction"; }
  }

  lemma SlugLiteral(t: string, k: nat)
    requires k < |TopicRules| && t == TopicRules[k].slug
    ensures |t| > 0 && IsSlugText(t)
  {
    if k < 3 { SlugLiteralA(t, k); }
    else if k < 6 { SlugLiteralB(t, k); }
    else { SlugLiteralC(t, k); }
  }

  lemma TopicSlugsAreSlugs()
    ensures forall k :: 0 <= k < |TopicRules| ==> |TopicRules[k].slug| > 0 && IsSlugText(TopicRules[k].slug)
  {
    forall k | 0 <= k < |TopicRules|
      ensures |TopicRules[k].slug| > 0 && IsSlugText(TopicRules[k].slug)
    {
      SlugLiteral(TopicRules[k].slug, k);
    }
  }

  /** `first_msg.startswith('`') or first_msg.startswith('{') or 'Caveat:' in first_msg` */
  function LooksLikeSystem(msg: string): (r: bool)
    ensures r <==> OccursAt(msg, "`", 0) || OccursAt(msg, "{", 0) || exists i :: OccursAt(msg, "Caveat:", i)
  {
    ContainsIff(msg, "Caveat:");
    (|msg| > 0 && (msg[0] == '`' || msg[0] == '{')) || Contains(msg, "Caveat:")
  }

  /** `match.group(1).strip()[:200]` */
  function FirstMessageText(group: string): (r: string)
    ensures |r| <= 200
    ensures r <= Strip(group)
    ensures |r| == if |Strip(group)| > 200 then 200 else |Strip(group)|
  {
    var t := Strip(group);
    if |t| > 200 then t[..200] else t
  }

  /** The topic of a captured first user message, if any rule applies. */
  function TopicOf(group: string): (r: Option<string>)
    ensures r.Some? ==> exists k :: 0 <= k < |TopicRules| && r.value == TopicRules[k].slug
    ensures LooksLikeSystem(FirstMessageText(group)) ==> r.None?
    ensures !LooksLikeSystem(FirstMessageText(group)) ==>
              (r.None? <==> forall k :: 0 <= k < |TopicRules| ==> !RuleMatches(Lower(FirstMessageText(group)), TopicRules[k]))
    ensures forall k: nat :: !LooksLikeSystem(FirstMessageText(group)) && FirstRule(Lower(FirstMessageText(group)), TopicRules, k) ==>
              r == Some(TopicRules[k].slug)
  {
    var msg := FirstMessageText(group);
    forall k: nat | FirstRule(Lower(msg), TopicRules, k) ensures FirstTopic(Lower(msg), TopicRules) == Some(TopicRules[k].slug) {
      FirstTopicAt(Lower(msg), TopicRules, k);
    }
    if LooksLikeSystem(msg) then None else FirstTopic(Lower(msg), TopicRules)
  }

  /** The description of a session that is not an agent session. */
  function ConversationDescription(content: string, project: Option<string>): (r: string)
    ensures |r| > 0 && IsSlugText(r)
    ensures r == FallbackDescription(project) || exists k :: 0 <= k < |TopicRules| && r == TopicRules[k].slug
    ensures FirstUserMessage(content).Some? && TopicOf(FirstUserMessage(content).value).Some? ==>
              r == TopicOf(FirstUserMessage(content).value).value
    ensures FirstUserMessage(content).None? || TopicOf(FirstUserMessage(content).value).None? ==>
              r == FallbackDescription(project)
  {
    TopicSlugsAreSlugs();
    var topic := match FirstUserMessage(content) case Some(g) => TopicOf(g) case None => None;
    if topic.Some? then topic.value else FallbackDescription(project)
  }

  lemma SlugTextAppend(a: string, b: string)
    ensures IsSlugText(a) && IsSlugText(b) ==> IsSlugText(a + b)
  {
    if IsSlugText(a) && IsSlugText(b) {
      forall k | 0 <= k < |a + b| ensures IsSlugChar((a + b)[k]) {
        if k < |a| { assert (a + b)[k] == a[k]; } else { assert (a + b)[k] == b[k - |a|]; }
      }
    }
  }

  /** The description of an agent session. */
  function AgentDescription(project: Option<string>): (r: string)
    ensures |r| > 0 && IsSlugText(r)
    ensures AgentNameUsable(project) ==> r == SanitizeDescription(project.value) + "-subagent"
    ensures !AgentNameUsable(project) ==> r == "subagent"
  {
    var suffix := "-subagent";
    assert IsSlugText(suffix);
    assert IsSlugText("subagent");
    SlugTextAppend(SanitizeDescription(project.GetOr("")), suffix);
    if AgentNameUsable(project) then SanitizeDescription(project.value) + "-subagent" else "subagent"
  }

  /** A project name counts when it is present and non-empty (Python truthiness). */
  predicate HasName(project: Option<string>) {
    project.Some? && project.value != ""
  }

  /** The end of the non-agent chain: sanitized project name, then `"conversation"`. */
  function FallbackDescription(project: Option<string>): (r: string)
    ensures |r| > 0 && IsSlugText(r)
    ensures HasName(project) ==> r == SanitizeDescription(project.value)
    ensures !HasName(project) ==> r == "conversation"
  {
    if HasName(project) then SanitizeDescription(project.value) else "conversation"
  }

  /** The `<name>-subagent` form applies: a short name whose slug is longer than two. */
  predicate AgentNameUsable(project: Option<string>) {
    HasName(project) && |project.value| < 30 && |SanitizeDescription(project.value)| > 2
  }

  /** `generate_description` */
  function GenerateDescription(content: string, project: Option<string>, filename: string): (r: string)
    ensures |r| > 0 && IsSlugText(r)
    ensures IsAgentSession(content, filename) ==>
              if AgentNameUsable(project) then r == SanitizeDescription(project.value) + "-subagent"
              else r == "subagent"
    ensures !IsAgentSession(content, filename) ==>
              r == FallbackDescription(project) || exists k :: 0 <= k < |TopicRules| && r == TopicRules[k].slug
    ensures !IsAgentSession(content, filename) && FirstUserMessage(content).Some? && TopicOf(FirstUserMessage(content).value).Some? ==>
              r == TopicOf(FirstUserMessage(content).value).value
    ensures !IsAgentSession(content, filename) && (FirstUserMessage(content).None? || TopicOf(FirstUserMessage(content).value).None?) ==>
              r == FallbackDescription(project)
  {
    if IsAgentSession(content, filename) then AgentDescription(project)
    else ConversationDescription(content, project)
  }

  /** Rules are tried in order: a message naming both a plugin and a test is about plugins. */
  lemma PluginBeforeTesting(content: string, project: Option<string>, filename: string, g: string)
    requires !IsAgentSession(content, filename) && FirstUserMessage(content) == Some(g)
    requires var msg := FirstMessageText(g);
             !LooksLikeSystem(msg) && Contains(Lower(msg), "plugin") && Contains(Lower(msg), "test")
    requires forall k :: 0 <= k < 4 ==> !RuleMatches(Lower(FirstMessageText(g)), TopicRules[k])
    ensures GenerateDescription(content, project, filename) == "plugin-development"
  {
    PluginRule(Lower(FirstMessageText(g)));
    GenerateByRule(content, project, filename, g, 4);
  }

  /** A message naming a plugin that no earlier rule claims falls to the plugin rule. */
  lemma PluginRule(msg: string)
    requires Contains(msg, "plugin")
    requires forall k :: 0 <= k < 4 ==> !RuleMatches(msg, TopicRules[k])
    ensures FirstRule(msg, TopicRules, 4)
  {
    assert AnyIn(msg, TopicRules[4].clauses[0]) by {
      assert Contains(msg, TopicRules[4].clauses[0][0]);
    }
  }

  /** Outside agent sessions, the first rule that the first user message matches names the session. */
  lemma GenerateByRule(content: string, project: Option<string>, filename: string, g: string, k: nat)
    requires !IsAgentSession(content, filename) && FirstUserMessage(content) == Some(g)
    requires !LooksLikeSystem(FirstMessageText(g)) && FirstRule(Lower(FirstMessageText(g)), TopicRules, k)
    ensures GenerateDescription(content, project, filename) == TopicRules[k].slug
  {
    assert TopicOf(g) == Some(TopicRules[k].slug);
  }

  /** Outside agent sessions, no usable first message or no matching rule leaves the fallback chain. */
  lemma GenerateFallback(content: string, project: Option<string>, filename: string)
    requires !IsAgentSession(content, filename)
    requires || FirstUserMessage(content).None?
             || var g := FirstUserMessage(content).value;
                || LooksLikeSystem(FirstMessageText(g))
                || forall k :: 0 <= k < |TopicRules| ==> !RuleMatches(Lower(FirstMessageText(g)), TopicRules[k])
    ensures GenerateDescription(content, project, filename) == FallbackDescription(project)
  {
  }

  /** The first rule that matches gives the topic. */
  lemma {:induction false} FirstTopicAt(msg: string, rules: seq<TopicRule>, k: nat)
    requires k < |rules| && RuleMatches(msg, rules[k])
    requires forall j :: 0 <= j < k ==> !RuleMatches(msg, rules[j])
    ensures FirstTopic(msg, rules) == Some(rules[k].slug)
  {
    if k > 0 {
      assert forall j :: 0 <= j < k - 1 ==> rules[1..][j] == rules[j + 1];
      FirstTopicAt(msg, rules[1..], k - 1);
    }
  }

  /** A system-looking first message is ignored: only the fallback chain remains. */
  lemma SystemMessageIgnored(content: string, project: Option<string>, filename: string, g: string)
    requires !IsAgentSession(content, filename) && FirstUserMessage(content) == Some(g)
    requires LooksLikeSystem(FirstMessageText(g))
    ensures GenerateDescription(content, project, filename) == FallbackDescription(project)
  {
  }

  // -------------------------------------------------------------------- title

  /** The character `str.title()` puts at `i`: letters upper-cased after a non-letter, lower-cased after a letter. */
  function TitleChar(s: string, i: nat): (c: char)
    requires i < |s|
    ensures LowerChar(c) == LowerChar(s[i]) && (IsAlpha(c) <==> IsAlpha(s[i]))
    ensures IsAlpha(c) && (i == 0 || !IsAlpha(s[i - 1])) ==> IsUpper(c)
    ensures IsAlpha(c) && i > 0 && IsAlpha(s[i - 1]) ==> IsLower(c)
    ensures !IsAlpha(s[i]) ==> c == s[i]
  {
    if !IsAlpha(s[i]) then s[i]
    else if i == 0 || !IsAlpha(s[i - 1]) then UpperChar(s[i])
    else LowerChar(s[i])
  }

  /** `str.title()` over ASCII. */
  function TitleCase(s: string): (r: string)
    ensures |r| == |s| && forall i :: 0 <= i < |s| ==> r[i] == TitleChar(s, i)
    ensures forall i :: 0 <= i < |s| ==> LowerChar(r[i]) == LowerChar(s[i]) && (IsAlpha(r[i]) <==> IsAlpha(s[i]))
    ensures forall i :: 0 <= i < |s| && IsAlpha(s[i]) && (i == 0 || !IsAlpha(s[i - 1])) ==> IsUpper(r[i])
    ensures forall i :: 0 < i < |s| && IsAlpha(s[i]) && IsAlpha(s[i - 1]) ==> IsLower(r[i])
    ensures forall i :: 0 <= i < |s| && !IsAlpha(s[i]) ==> r[i] == s[i]
  {
    var r := seq(|s|, i requires 0 <= i < |s| => TitleChar(s, i));
    assert forall i :: 0 <= i < |s| ==> r[i] == TitleChar(s, i);
    r
  }

  function DashToSpace(c: char): char { if c == '-' then ' ' else c }

  /** `description.replace('-', ' ').title()` */
  function Title(desc: string): (r: string)
    ensures |r| == |desc| && '-' !in r
    ensures forall i :: 0 <= i < |r| ==> LowerChar(r[i]) == LowerChar(DashToSpace(desc[i]))
    ensures forall i :: 0 <= i < |r| && IsAlpha(r[i]) && (i == 0 || !IsAlpha(r[i - 1])) ==> IsUpper(r[i])
    ensures forall i :: 0 < i < |r| && IsAlpha(r[i]) && IsAlpha(r[i - 1]) ==> IsLower(r[i])
    ensures forall i :: 0 <= i < |r| && !IsAlpha(r[i]) ==> r[i] == DashToSpace(desc[i])
  {
    var d := seq(|desc|, i requires 0 <= i < |desc| => DashToSpace(desc[i]));
    var r := TitleCase(d);
    assert forall i :: 0 <= i < |r| ==> r[i] != '-' by {
      forall i | 0 <= i < |r| ensures r[i] != '-' {
        assert LowerChar(r[i]) == LowerChar(d[i]) && d[i] != '-';
      }
    }
    r
  }

  /** Lower-casing a title and turning spaces back into hyphens. */
  function SlugOfTitle(t: string): string {
    seq(|t|, i requires 0 <= i < |t| => if t[i] == ' ' then '-' else LowerChar(t[i]))
  }

  /** The title of a slug reads back as the same slug. */
  lemma TitleRoundTrip(desc: string)
    requires IsSlugText(desc)
    ensures SlugOfTitle(Title(desc)) == desc
  {
  }
}

=== FILE: frontmatter.dfy ===
/**
 * The YAML frontmatter block of the renamer (scripts/rename-extracts.py):
 * rendering `create_frontmatter`'s fixed field list, reading such a block back,
 * and `add_frontmatter_to_content`, which drops a leading `---` ... `---`
 * block before prepending the new one.
 */
module Frontmatter {
  import opened Wrappers
  import opened Text
  import opened Search
  import opened Dates
  import Describe

  // ----------------------------------------------------------------- rendering

  /** One `key: value` line of the block. */
  datatype Field = Field(key: string, value: string)

  /** A YAML key as the renderer writes them: lower-case letters and `_`. */
  predicate IsKeyText(k: string) {
    |k| > 0 && forall i :: 0 <= i < |k| ==> IsLower(k[i]) || k[i] == '_'
  }

  /** Fields that render to one line each and can be read back. */
  predicate WellFormed(fs: seq<Field>) {
    forall i :: 0 <= i < |fs| ==> IsKeyText(fs[i].key) && '\n' !in fs[i].value
  }

  function Keys(fs: seq<Field>): (ks: seq<string>)
    ensures |ks| == |fs| && forall i :: 0 <= i < |fs| ==> ks[i] == fs[i].key
  {
    seq(|fs|, i requires 0 <= i < |fs| => fs[i].key)
  }

  /** A double-quoted YAML scalar, written without escaping. */
  function Quoted(v: string): string {
    "\"" + v + "\""
  }

  function RenderField(f: Field): string {
    f.key + ": " + f.value
  }

  function RenderFields(fs: seq<Field>): (ls: seq<string>)
    ensures |ls| == |fs| && forall i :: 0 <= i < |fs| ==> ls[i] == RenderField(fs[i])
  {
    seq(|fs|, i requires 0 <= i < |fs| => RenderField(fs[i]))
  }

  /** The fence line that opens and closes the block. */
  const Fence := "---"

  /** The block: a fence line, one line per field, a fence line, each newline-terminated. */
  function Render(fs: seq<Field>): (r: string)
    ensures r == "---\n" + Unlines(RenderFields(fs)) + "---\n"
  {
    var ls := [Fence] + RenderFields(fs) + [Fence];
    UnlinesAppend([Fence] + RenderFields(fs), [Fence]);
    UnlinesAppend([Fence], RenderFields(fs));
    Unlines(ls)
  }

  /** The status, quality and categorisation fields every block ends with. */
  const TrailingFields: seq<Field> := [
    Field("status", "\"complete\""),
    Field("is_archived", "false"),
    Field("has_actionable_outcomes", "false"),
    Field("outcome_summary", "\"\""),
    Field("ai_model", "\"claude-opus-4-5\""),
    Field("is_reviewed", "false"),
    Field("topics", "[]"),
    Field("related_conversations", "[]"),
    Field("tags", "[claude-code, conversation]")
  ]

  /** Keys of concatenated field lists. */
  lemma KeysAppend(a: seq<Field>, b: seq<Field>)
    ensures Keys(a + b) == Keys(a) + Keys(b)
  {
  }

  /** Each trailing field's key and value, one literal at a time, three per lemma. */
  lemma TrailingLiteralA(f: Field, k: nat)
    requires k < 3 && k < |TrailingFields| && f == TrailingFields[k]
    ensures IsKeyText(f.key) && '\n' !in f.value && |f.key| != |"project"|
  {
    if k == 0 { assert f == Field("status", "\"complete\""); }
    else if k == 1 { assert f == Field("is_archived", "false"); }
    else { assert f == Field("has_actionable_outcomes", "false"); }
  }

  lemma TrailingLiteralB(f: Field, k: nat)
    requires 3 <= k < 6 && k < |TrailingFields| && f == TrailingFields[k]
    ensures IsKeyText(f.key) && '\n' !in f.value && |f.key| != |"project"|
  {
    if k == 3 { assert f == Field("outcome_summary", "\"\""); }
    else if k == 4 { assert f == Field("ai_model", "\"claude-opus-4-5\""); ModelField(f); }
    else { assert f == Field("is_reviewed", "false"); }
  }

  lemma ModelField(f: Field)
    requires f == Field("ai_model", "\"claude-opus-4-5\"")
    ensures IsKeyText(f.key) && '\n' !in f.value && |f.key| != |"project"|
  {
    assert IsKeyText("ai_model");
    assert forall i :: 0 <= i < |f.value| ==> f.value[i] != '\n';
  }

  lemma TrailingLiteralC(f: Field, k: nat)
    requires 6 <= k < |TrailingFields| && f == TrailingFields[k]
    ensures IsKeyText(f.key) && '\n' !in f.value && |f.key| != |"project"|
  {
    if k == 6 { assert f == Field("topics", "[]"); }
    else if k == 7 { assert f == Field("related_conversations", "[]"); }
    else { assert f == Field("tags", "[claude-code, conversation]"); }
  }

  lemma TrailingLiteral(f: Field, k: nat)
    requires k < |TrailingFields| && f == TrailingFields[k]
    ensures IsKeyText(f.key) && '\n' !in f.value && |f.key| != |"project"|
  {
    if k < 3 { TrailingLiteralA(f, k); }
    else if k < 6 { TrailingLiteralB(f, k); }
    else { TrailingLiteralC(f, k); }
  }

  lemma TrailingWellFormed()
    ensures WellFormed(TrailingFields)
    ensures "project" !in Keys(TrailingFields)
  {
    forall k | 0 <= k < |TrailingFields|
      ensures IsKeyText(TrailingFields[k].key) && '\n' !in TrailingFields[k].value
      ensures Keys(TrailingFields)[k] != "project"
    {
      TrailingLiteral(TrailingFields[k], k);
    }
  }

  function ConversationType(isSubagent: bool): string {
    if isSubagent then "subagent" else "conversation"
  }

  /** The identity and date fields that open every block, dates in `%Y-%m-%d`. */
  function HeadFields(sessionId: string, start: Date, end: Date, title: string): seq<Field>
    requires Valid(start) && Valid(end)
  {
    [ Field("session_id", sessionId),
      Field("title", Quoted(title)),
      Field("start_date", Iso(start)),
      Field("end_date", Iso(end)) ]
  }

  /** The `project` line, present only for a non-empty name. */
  function ProjectFields(project: Option<string>): seq<Field> {
    if Describe.HasName(project) then [Field("project", Quoted(project.value))] else []
  }

  function KindFields(isSubagent: bool): seq<Field> {
    [Field("conversation_type", Quoted(ConversationType(isSubagent)))]
  }

  /** `create_frontmatter`'s field list, in its fixed order. */
  function Fields(sessionId: string, start: Date, end: Date, title: string,
                  project: Option<string>, isSubagent: bool): (fs: seq<Field>)
    requires Valid(start) && Valid(end)
    ensures Keys(fs) == ["session_id", "title", "start_date", "end_date"]
                      + (if Describe.HasName(project) then ["project"] else [])
                      + ["conversation_type"] + Keys(TrailingFields)
  {
    var head := HeadFields(sessionId, start, end, title);
    var proj := ProjectFields(project);
    var kind := KindFields(isSubagent);
    KeysAppend(head, proj);
    KeysAppend(head + proj, kind);
    KeysAppend(head + proj + kind, TrailingFields);
    head + proj + kind + TrailingFields
  }

  /** The values the block records: the session id, the quoted title, both dates, the name and the kind. */
  lemma FieldValues(sessionId: string, start: Date, end: Date, title: string,
                    project: Option<string>, isSubagent: bool)
    requires Valid(start) && Valid(end)
    ensures var fs := Fields(sessionId, start, end, title, project, isSubagent);
      && Field("session_id", sessionId) in fs && Field("title", Quoted(title)) in fs
      && Field("start_date", Iso(start)) in fs && Field("end_date", Iso(end)) in fs
      && (Describe.HasName(project) ==> Field("project", Quoted(project.value)) in fs)
      && Field("conversation_type", Quoted(ConversationType(isSubagent))) in fs
  {
    var fs := Fields(sessionId, start, end, title, project, isSubagent);
    var head := HeadFields(sessionId, start, end, title);
    var proj := ProjectFields(project);
    assert fs == head + proj + KindFields(isSubagent) + TrailingFields;
    assert fs[0] == head[0] && fs[1] == head[1] && fs[2] == head[2] && fs[3] == head[3];
    assert fs[|head| + |proj|] == KindFields(isSubagent)[0];
    assert Describe.HasName(project) ==> fs[4] == proj[0];
  }

  /** `create_frontmatter` */
  function CreateFrontmatter(sessionId: string, start: Date, end: Date, title: string,
                             project: Option<string>, isSubagent: bool): (r: string)
    requires Valid(start) && Valid(end)
    ensures |r| >= 8 && r[..4] == "---\n" && r[|r| - 4..] == "---\n"
  {
    Render(Fields(sessionId, start, end, title, project, isSubagent))
  }

  /** The block has a `project` line exactly when the name is non-empty. */
  lemma ProjectLineIff(sessionId: string, start: Date, end: Date, title: string,
                       project: Option<string>, isSubagent: bool)
    requires Valid(start) && Valid(end)
    ensures "project" in Keys(Fields(sessionId, start, end, title, project, isSubagent))
        <==> Describe.HasName(project)
  {
    var ks := Keys(Fields(sessionId, start, end, title, project, isSubagent));
    TrailingWellFormed();
    var tail := Keys(TrailingFields);
    if Describe.HasName(project) {
      assert ks[4] == "project";
    } else {
      var head := ["session_id", "title", "start_date", "end_date", "conversation_type"];
      assert ks == head + tail;
      FixedKeysLackProject(head);
      assert "project" !in head + tail;
    }
  }

  lemma FixedKeysLackProject(head: seq<string>)
    requires head == ["session_id", "title", "start_date", "end_date", "conversation_type"]
    ensures "project" !in head
  {
    forall i | 0 <= i < |head| ensures head[i] != "project" {
      assert |head[i]| != |"project"|;
    }
  }

  // ------------------------------------------------------------------- reading

  /** A `key: value` line split at its first `": "`. */
  function ParseField(line: string): Option<Field> {
    match Find(line, ": ")
    case None => None
    case Some(i) => Some(Field(line[..i], line[i + 2..]))
  }

  /** Every line parsed, or `None` if one of them is not a field line. */
  function ParseFields(ls: seq<string>): (r: Option<seq<Field>>)
    ensures r.Some? ==> |r.value| == |ls|
  {
    if ls == [] then Some([])
    else match (ParseField(ls[0]), ParseFields(ls[1..]))
      case (Some(f), Some(rest)) => Some([f] + rest)
      case _ => None
  }

  /** Index of the first line at or after `from` that equals `x`. */
  function IndexFrom(ls: seq<string>, x: string, from: nat): (r: Option<nat>)
    decreases |ls| - from
    ensures r.Some? ==> from <= r.value < |ls| && ls[r.value] == x
    ensures r.Some? ==> forall j :: from <= j < r.value ==> ls[j] != x
  {
    if from >= |ls| then None
    else if ls[from] == x then Some(from)
    else IndexFrom(ls, x, from + 1)
  }

  lemma {:induction false} IndexFromAt(ls: seq<string>, x: string, from: nat, p: nat)
    requires from <= p < |ls| && ls[p] == x
    requires forall j :: from <= j < p ==> ls[j] != x
    decreases p - from
    ensures IndexFrom(ls, x, from) == Some(p)
  {
    if from < p {
      IndexFromAt(ls, x, from + 1, p);
    }
  }

  /** The fields of a block at the start of `text`: an opening fence line, field lines, a closing fence line. */
  function ReadFrontmatter(text: string): Option<seq<Field>> {
    var ls := SplitLines(text);
    if ls[0] != Fence then None
    else match IndexFrom(ls, Fence, 1)
      case None => None
      case Some(j) => ParseFields(ls[1..j])
  }

  lemma ParseRenderField(f: Field)
    requires IsKeyText(f.key)
    ensures ParseField(RenderField(f)) == Some(f)
  {
    var line := RenderField(f);
    var n := |f.key|;
    assert OccursAt(line, ": ", n) by {
      assert line[n..n + 2] == ": ";
    }
    forall j | 0 <= j < n ensures !OccursAt(line, ": ", j) {
      assert line[j] == f.key[j] && f.key[j] != ':';
      assert j + 2 <= |line| ==> line[j..j + 2][0] == line[j];
    }
    assert Find(line, ": ") == Some(n);
    assert line[..n] == f.key && line[n + 2..] == f.value;
  }

  lemma {:induction false} ParseRenderFields(fs: seq<Field>)
    requires WellFormed(fs)
    ensures ParseFields(RenderFields(fs)) == Some(fs)
  {
    if fs != [] {
      ParseRenderField(fs[0]);
      assert RenderFields(fs)[1..] == RenderFields(fs[1..]);
      ParseRenderFields(fs[1..]);
      assert fs == [fs[0]] + fs[1..];
    }
  }

  /** Reading a rendered block back, whatever follows it, gives the fields it was rendered from. */
  lemma ReadRender(fs: seq<Field>, body: string)
    requires WellFormed(fs)
    ensures ReadFrontmatter(Render(fs) + body) == Some(fs)
  {
    var rs := RenderFields(fs);
    var ls := [Fence] + rs + [Fence];
    forall k | 0 <= k < |ls| ensures '\n' !in ls[k] {
      if 1 <= k <= |rs| {
        var f := fs[k - 1];
        assert ls[k] == f.key + ": " + f.value;
        assert forall c :: c in f.key ==> c != '\n';
      }
    }
    SplitUnlines(ls, body);
    var split := SplitLines(Render(fs) + body);
    assert split == ls + SplitLines(body);
    forall j | 1 <= j <= |rs| ensures split[j] != Fence {
      assert split[j] == RenderField(fs[j - 1]);
      assert split[j][|fs[j - 1].key|] == ':';
    }
    assert split[|rs| + 1] == Fence;
    IndexFromAt(split, Fence, 1, |rs| + 1);
    assert split[1..|rs| + 1] == rs;
    ParseRenderFields(fs);
  }

  /** The block `create_frontmatter` writes reads back as its fields whenever no value spans lines. */
  lemma CreateFrontmatterReadsBack(sessionId: string, start: Date, end: Date, title: string,
                                   project: Option<string>, isSubagent: bool, body: string)
    requires Valid(start) && Valid(end)
    requires '\n' !in sessionId && '\n' !in title
    requires Describe.HasName(project) ==> '\n' !in project.value
    ensures ReadFrontmatter(CreateFrontmatter(sessionId, start, end, title, project, isSubagent) + body)
         == Some(Fields(sessionId, start, end, title, project, isSubagent))
  {
    var fs := Fields(sessionId, start, end, title, project, isSubagent);
    FieldsWellFormed(sessionId, start, end, title, project, isSubagent);
    ReadRender(fs, body);
  }

  lemma WellFormedAppend(a: seq<Field>, b: seq<Field>)
    requires WellFormed(a) && WellFormed(b)
    ensures WellFormed(a + b)
  {
    forall i | 0 <= i < |a + b| ensures IsKeyText((a + b)[i].key) && '\n' !in (a + b)[i].value {
      if i < |a| { assert (a + b)[i] == a[i]; } else { assert (a + b)[i] == b[i - |a|]; }
    }
  }

  lemma IsoNewlineFree(d: Date)
    requires Valid(d)
    ensures '\n' !in Iso(d)
  {
    var r := Iso(d);
    forall i | 0 <= i < |r| ensures r[i] != '\n' {
      assert i < 4 || i == 4 || 5 <= i < 7 || i == 7 || 8 <= i < 10;
    }
  }

  lemma QuotedNewlineFree(v: string)
    requires '\n' !in v
    ensures '\n' !in Quoted(v)
  {
    var q := Quoted(v);
    forall i | 0 <= i < |q| ensures q[i] != '\n' {
      if 0 < i < |q| - 1 { assert q[i] == v[i - 1]; }
    }
  }

  lemma HeadWellFormed(sessionId: string, start: Date, end: Date, title: string)
    requires Valid(start) && Valid(end) && '\n' !in sessionId && '\n' !in title
    ensures WellFormed(HeadFields(sessionId, start, end, title))
  {
    IsoNewlineFree(start);
    IsoNewlineFree(end);
    QuotedNewlineFree(title);
    assert IsKeyText("session_id") && IsKeyText("title") && IsKeyText("start_date") && IsKeyText("end_date");
  }

  lemma ProjectKindWellFormed(project: Option<string>, isSubagent: bool)
    requires Describe.HasName(project) ==> '\n' !in project.value
    ensures WellFormed(ProjectFields(project)) && WellFormed(KindFields(isSubagent))
  {
    if Describe.HasName(project) {
      QuotedNewlineFree(project.value);
      assert IsKeyText("project");
    }
    QuotedNewlineFree(ConversationType(isSubagent));
    assert IsKeyText("conversation_type");
  }

  lemma FieldsWellFormed(sessionId: string, start: Date, end: Date, title: string,
                         project: Option<string>, isSubagent: bool)
    requires Valid(start) && Valid(end)
    requires '\n' !in sessionId && '\n' !in title
    requires Describe.HasName(project) ==> '\n' !in project.value
    ensures WellFormed(Fields(sessionId, start, end, title, project, isSubagent))
  {
    var head := HeadFields(sessionId, start, end, title);
    var proj := ProjectFields(project);
    var kind := KindFields(isSubagent);
    HeadWellFormed(sessionId, start, end, title);
    ProjectKindWellFormed(project, isSubagent);
    TrailingWellFormed();
    WellFormedAppend(head, proj);
    WellFormedAppend(head + proj, kind);
    WellFormedAppend(head + proj + kind, TrailingFields);
  }

  // ----------------------------------------------------------------- replacing

  /** `\s*$` under `re.MULTILINE` can end at `q` when the text after the fence at `p` is scanned. */
  predicate EndsFenceLine(s: string, p: nat, q: nat) {
    && p + 3 <= q <= |s|
    && (forall t :: p + 3 <= t < q ==> IsSpace(s[t]))
    && (q == |s| || s[q] == '\n')
  }

  /** The largest `q` in `[lo, hi)` with `s[q] == '\n'`. */
  function LastNewline(s: string, lo: nat, hi: nat): (r: Option<nat>)
    requires hi <= |s|
    decreases hi
    ensures r.Some? ==> lo <= r.value < hi && s[r.value] == '\n'
    ensures r.Some? ==> forall q :: r.value < q < hi ==> s[q] != '\n'
    ensures r.None? ==> forall q :: lo <= q < hi ==> s[q] != '\n'
  {
    if hi <= lo then None
    else if s[hi - 1] == '\n' then Some(hi - 1)
    else LastNewline(s, lo, hi - 1)
  }

  /**
   * `^---\s*$` under `re.MULTILINE`, tried at `p`: the end of the match.
   * The greedy `\s*` backs off to the last place where `$` holds.
   */
  function FenceAt(s: string, p: nat): (r: Option<nat>)
    ensures r.Some? ==> LineStart(s, p) && OccursAt(s, Fence, p) && EndsFenceLine(s, p, r.value)
    ensures r.Some? ==> forall q :: r.value < q && EndsFenceLine(s, p, q) ==> false
    ensures r.None? && LineStart(s, p) && OccursAt(s, Fence, p) ==> forall q :: !EndsFenceLine(s, p, q)
  {
    if !(LineStart(s, p) && OccursAt(s, Fence, p)) then None
    else
      var w := SpanEnd(s, p + 3, IsSpace);
      assert forall q: nat :: EndsFenceLine(s, p, q) ==> q <= w;
      if w == |s| then Some(|s|)
      else LastNewline(s, p + 3, w)
  }

  /** The body `add_frontmatter_to_content` keeps: an existing leading block and the whitespace after it dropped. */
  function StripFrontmatter(content: string): (r: string)
    ensures r == content || exists k :: 3 <= k <= |content| && r == LStrip(content[k..])
    ensures !OccursAt(content, Fence, 0) ==> r == content
  {
    if OccursAt(content, Fence, 0) then
      var s := content[3..];
      match FirstFrom(s, 0, FenceAt)
      case Some((_, e)) =>
        assert s[e..] == content[3 + e..];
        LStrip(s[e..])
      case None => content
    else content
  }

  /** The first fence line after the opening `---` ends the old block; what follows, left-stripped, is kept. */
  lemma StripAtFirstFence(content: string, p: nat)
    requires OccursAt(content, Fence, 0) && LeftmostAt(content[3..], FenceAt, p)
    ensures 3 + FenceAt(content[3..], p).value <= |content|
    ensures StripFrontmatter(content) == LStrip(content[3 + FenceAt(content[3..], p).value..])
  {
    FirstAt(content[3..], FenceAt, p, FenceAt(content[3..], p).value);
  }

  /** Without a closing fence line the content is kept whole, opening `---` included. */
  lemma StripWithoutClosingFence(content: string)
    requires OccursAt(content, Fence, 0) && NoMatch(content[3..], FenceAt)
    ensures StripFrontmatter(content) == content
  {
    assert FirstFrom(content[3..], 0, FenceAt).None?;
  }

  /** `add_frontmatter_to_content`: the new block, then a suffix of the old content. */
  function AddFrontmatter(content: string, fm: string): (r: string)
    ensures |r| >= |fm| && r[..|fm|] == fm
    ensures r[|fm|..] == content || exists k :: 0 <= k <= |content| && r[|fm|..] == LStrip(content[k..])
    ensures r[|fm|..] == StripFrontmatter(content)
  {
    var b := StripFrontmatter(content);
    assert (fm + b)[|fm|..] == b;
    fm + b
  }

  /**
   * A block the stripper recognises exactly: fence lines first and last, and
   * no line in between that begins with `-`.
   */
  predicate Fenced(fm: string) {
    && |fm| >= 8 && fm[..4] == "---\n" && fm[|fm| - 5..] == "\n---\n"
    && forall i :: 4 <= i < |fm| - 4 && fm[i - 1] == '\n' ==> fm[i] != '-'
  }

  /** In the text after the opening fence, the closing fence sits on its own line just before the body. */
  lemma ClosingFence(fm: string, body: string)
    requires Fenced(fm)
    ensures var s := (fm + body)[3..]; var p0 := |fm| - 7;
      && LineStart(s, p0) && OccursAt(s, Fence, p0) && p0 + 4 <= |s| && s[p0 + 3] == '\n' && s[p0 + 4..] == body
  {
    var s := (fm + body)[3..];
    var p0 := |fm| - 7;
    var tail := fm[|fm| - 5..];
    assert tail[0] == '\n' && tail[1] == '-' && tail[2] == '-' && tail[3] == '-' && tail[4] == '\n';
    assert s[p0 - 1] == tail[0] && s[p0] == tail[1] && s[p0 + 1] == tail[2] && s[p0 + 2] == tail[3] && s[p0 + 3] == tail[4];
    assert s[p0..p0 + 3] == Fence;
    assert s[p0 + 4..] == body;
  }

  /** No line of a fenced block's interior can end the block. */
  lemma NoEarlierFence(fm: string, body: string)
    requires Fenced(fm)
    ensures var s := (fm + body)[3..];
      forall j :: 0 <= j < |fm| - 7 ==> FenceAt(s, j).None?
  {
    var s := (fm + body)[3..];
    forall j | 0 <= j < |fm| - 7 ensures FenceAt(s, j).None? {
      assert s[j] == fm[j + 3];
      assert j > 0 ==> s[j - 1] == fm[j + 2];
      assert fm[..4][3] == '\n';
      assert OccursAt(s, Fence, j) ==> s[j] == '-';
    }
  }

  /** The closing fence's match ends where left-stripping the rest yields the body. */
  lemma FenceEnd(s: string, p0: nat, body: string)
    requires LineStart(s, p0) && OccursAt(s, Fence, p0) && p0 + 4 <= |s| && s[p0 + 3] == '\n' && s[p0 + 4..] == body
    requires body == [] || !IsSpace(body[0])
    ensures FenceAt(s, p0).Some? && LStrip(s[FenceAt(s, p0).value..]) == body
  {
    if body == [] {
      SpanEndAt(s, p0 + 3, |s|, IsSpace);
      assert FenceAt(s, p0) == Some(|s|);
    } else {
      SpanEndAt(s, p0 + 3, p0 + 4, IsSpace);
      assert FenceAt(s, p0) == Some(p0 + 3);
      assert s[p0 + 3..] == "\n" + body;
      LStripSpacePrefix("\n", body);
    }
  }

  /** A fenced block in front of a body that does not start with whitespace is removed exactly. */
  lemma ReplacesFencedBlock(fm: string, body: string)
    requires Fenced(fm) && (body == [] || !IsSpace(body[0]))
    ensures StripFrontmatter(fm + body) == body
  {
    var c := fm + body;
    assert c[..3] == fm[..4][..3];
    var s := c[3..];
    var p0 := |fm| - 7;
    ClosingFence(fm, body);
    NoEarlierFence(fm, body);
    FenceEnd(s, p0, body);
    FirstAt(s, FenceAt, p0, FenceAt(s, p0).value);
  }

  /** Adding the same fenced block twice is the same as adding it once. */
  lemma AddFrontmatterIdempotent(content: string, fm: string)
    requires Fenced(fm) && (content == [] || !IsSpace(content[0]))
    ensures AddFrontmatter(AddFrontmatter(content, fm), fm) == AddFrontmatter(content, fm)
  {
    var b := StripFrontmatter(content);
    assert b == [] || !IsSpace(b[0]);
    ReplacesFencedBlock(fm, b);
  }

  /** A rendered block of well-formed fields is one the stripper recognises. */
  lemma RenderFenced(fs: seq<Field>)
    requires WellFormed(fs) && fs != []
    ensures Fenced(Render(fs))
  {
    var ls := RenderFields(fs);
    var u := Unlines(ls);
    var fm := Render(fs);
    forall k | 0 <= k < |ls| ensures ls[k] != [] && '\n' !in ls[k] && ls[k][0] != '-' {
      var f := fs[k];
      assert ls[k] == f.key + ": " + f.value;
      assert ls[k][0] == f.key[0];
      assert forall c :: c in f.key ==> c != '\n';
    }
    UnlinesEndsWithNewline(ls);
    assert fm[|fm| - 5..] == [u[|u| - 1]] + "---\n";
    forall i | 4 <= i < |fm| - 4 && fm[i - 1] == '\n' ensures fm[i] != '-' {
      var j := i - 4;
      assert fm[i] == u[j];
      assert j > 0 ==> u[j - 1] == fm[i - 1];
      UnlinesLineStart(ls, j);
    }
  }

  /** `create_frontmatter`'s block is replaced, not stacked, by a later run. */
  lemma CreateFrontmatterFenced(sessionId: string, start: Date, end: Date, title: string,
                                project: Option<string>, isSubagent: bool)
    requires Valid(start) && Valid(end)
    requires '\n' !in sessionId && '\n' !in title
    requires Describe.HasName(project) ==> '\n' !in project.value
    ensures Fenced(CreateFrontmatter(sessionId, start, end, title, project, isSubagent))
  {
    var fs := Fields(sessionId, start, end, title, project, isSubagent);
    FieldsWellFormed(sessionId, start, end, title, project, isSubagent);
    assert |Keys(fs)| > 0;
    RenderFenced(fs);
  }
}

=== FILE: metadata.dfy ===
/**
 * Metadata extraction of the renamer (scripts/rename-extracts.py): the
 * session id, the header start date, the latest in-range date anywhere in the
 * text, and the project name from working-directory paths. Each regular
 * expression is a matcher at one position; `Search.First` supplies
 * `re.search`'s leftmost-match scan.
 */
module Metadata {
  import opened Wrappers
  import opened Text
  import opened Search
  import opened Dates

  // ---------------------------------------------------------------- session id

  /** `[a-f0-9-]` under `re.IGNORECASE` */
  predicate IsIdChar(c: char) {
    IsDigit(c) || ('a' <= LowerChar(c) <= 'f') || c == '-'
  }

  predicate IsIdText(s: string) {
    forall k :: 0 <= k < |s| ==> IsIdChar(s[k])
  }

  /** The literal `lit` at `i`, ASCII letters compared without case. */
  predicate OccursAtIgnoreCase(s: string, lit: string, i: nat) {
    i + |lit| <= |s| && forall t :: 0 <= t < |lit| ==> LowerChar(s[i + t]) == LowerChar(lit[t])
  }

  const SessionLabel := "Session ID:"

  /**
   * `Session ID:\s*([a-f0-9-]+)` with `re.IGNORECASE`, anchored at `i`. The
   * whitespace run cannot give back a character to the id class, so the
   * capture is the longest id run after the longest whitespace run.
   */
  function SessionIdAt(s: string, i: nat): (r: Option<string>)
    ensures r.Some? ==> |r.value| > 0 && IsIdText(r.value)
    ensures r.Some? ==> OccursAtIgnoreCase(s, SessionLabel, i)
  {
    if !OccursAtIgnoreCase(s, SessionLabel, i) then None
    else
      var j := SpanEnd(s, i + |SessionLabel|, IsSpace);
      var k := SpanEnd(s, j, IsIdChar);
      if k == j then None else Some(s[j..k])
  }

  /** `extract_session_id`: the capture of the leftmost `Session ID:` match. */
  function ExtractSessionId(content: string): (r: Option<string>)
    ensures r.Some? ==> |r.value| > 0 && IsIdText(r.value)
    ensures r.Some? ==> exists i :: 0 <= i <= |content| && SessionIdAt(content, i) == r
                           && forall j :: 0 <= j < i ==> SessionIdAt(content, j).None?
    ensures r.None? <==> forall i :: 0 <= i <= |content| ==> SessionIdAt(content, i).None?
  {
    var f := FirstFrom(content, 0, SessionIdAt);
    if f.Some? then
      assert SessionIdAt(content, f.value.0) == Some(f.value.1);
      Some(f.value.1)
    else None
  }

  // ---------------------------------------------------------------- start date

  /** `^Date:\s*(\d{4}-\d{2}-\d{2})` (MULTILINE) at `i`, the groups unvalidated. */
  function StartDateAt(s: string, i: nat): (r: Option<Date>)
    ensures r.Some? ==> LineStart(s, i) && OccursAt(s, "Date:", i)
  {
    if !(OccursAt(s, "Date:", i) && LineStart(s, i)) then None
    else
      var j := SpanEnd(s, i + 5, IsSpace);
      if DateShapeAt(s, j) then Some(DateAt(s, j)) else None
  }

  /**
   * The header date `extract_start_date` hands to `strptime`. The date is not
   * yet validated: `strptime` raises on an impossible date, which the caller
   * does not catch.
   */
  function ExtractStartDate(content: string): (r: Option<Date>)
    ensures r.Some? ==> exists i :: 0 <= i <= |content| && StartDateAt(content, i) == r
                           && forall j :: 0 <= j < i ==> StartDateAt(content, j).None?
    ensures r.None? <==> forall i :: 0 <= i <= |content| ==> StartDateAt(content, i).None?
  {
    var f := FirstFrom(content, 0, StartDateAt);
    if f.Some? then
      assert StartDateAt(content, f.value.0) == Some(f.value.1);
      Some(f.value.1)
    else None
  }

  // --------------------------------------------------------------- latest date

  /**
   * Start positions `re.finditer(r'(\d{4})-(\d{2})-(\d{2})')` reports from
   * `i` on: after a match the scan resumes at its end, so matches never overlap.
   */
  function DateMatchesFrom(s: string, i: nat): (ps: seq<nat>)
    decreases |s| - i
    ensures forall k :: 0 <= k < |ps| ==> i <= ps[k] && DateShapeAt(s, ps[k])
    ensures forall k :: 0 < k < |ps| ==> ps[k - 1] + 10 <= ps[k]
  {
    if i + 10 > |s| then []
    else if DateShapeAt(s, i) then [i] + DateMatchesFrom(s, i + 10)
    else DateMatchesFrom(s, i + 1)
  }

  function DateMatches(s: string): seq<nat> {
    DateMatchesFrom(s, 0)
  }

  /**
   * Every date-shaped position is reported, unless it overlaps a reported
   * match that starts before it.
   */
  lemma {:induction false} DateMatchesCover(s: string, i: nat, p: nat)
    requires i <= p && DateShapeAt(s, p)
    ensures var ps := DateMatchesFrom(s, i);
            p in ps || exists k :: 0 <= k < |ps| && ps[k] < p < ps[k] + 10
    decreases |s| - i
  {
    var ps := DateMatchesFrom(s, i);
    if DateShapeAt(s, i) {
      if p != i && p >= i + 10 {
        DateMatchesCover(s, i + 10, p);
        var qs := DateMatchesFrom(s, i + 10);
        assert ps == [i] + qs;
        if p !in qs {
          var k :| 0 <= k < |qs| && qs[k] < p < qs[k] + 10;
          assert ps[k + 1] == qs[k];
        }
      } else if p != i {
        assert ps[0] == i;
      }
    } else {
      DateMatchesCover(s, i + 1, p);
    }
  }

  /** A date that passes `datetime(...)` and the 2020..2030 sanity check. */
  predicate Qualifies(d: Date) {
    Valid(d) && 2020 <= d.year <= 2030
  }

  /** `max` over the qualifying dates among `ds`. */
  function Latest(ds: seq<Date>): (r: Option<Date>)
    ensures r.None? <==> forall k :: 0 <= k < |ds| ==> !Qualifies(ds[k])
    ensures r.Some? ==> Qualifies(r.value)
    ensures r.Some? ==> exists k :: 0 <= k < |ds| && ds[k] == r.value
    ensures r.Some? ==> forall k :: 0 <= k < |ds| && Qualifies(ds[k]) ==> NotAfter(ds[k], r.value)
  {
    if ds == [] then None
    else
      var rest := Latest(ds[1..]);
      assert forall k :: 1 <= k < |ds| ==> ds[k] == ds[1..][k - 1];
      var d := ds[0];
      if !Qualifies(d) then rest
      else match rest
        case None => Some(d)
        case Some(e) => if Before(e, d) then Some(d) else Some(e)
  }

  /** The dates at the positions `ps`. */
  function DatesAt(s: string, ps: seq<nat>): (ds: seq<Date>)
    requires forall k :: 0 <= k < |ps| ==> DateShapeAt(s, ps[k])
    ensures |ds| == |ps| && forall k :: 0 <= k < |ps| ==> ds[k] == DateAt(s, ps[k])
  {
    seq(|ps|, k requires 0 <= k < |ps| => DateAt(s, ps[k]))
  }

  /**
   * `extract_latest_date`: `None` exactly when no reported match is a real
   * date in 2020..2030; otherwise the greatest such date among the matches.
   */
  function ExtractLatestDate(content: string): (r: Option<Date>)
    ensures var ps := DateMatches(content);
            r.None? <==> forall k :: 0 <= k < |ps| ==> !Qualifies(DateAt(content, ps[k]))
    ensures r.Some? ==> Qualifies(r.value)
    ensures var ps := DateMatches(content);
            r.Some? ==> exists k :: 0 <= k < |ps| && DateAt(content, ps[k]) == r.value
    ensures var ps := DateMatches(content);
            r.Some? ==> forall k :: 0 <= k < |ps| && Qualifies(DateAt(content, ps[k]))
                          ==> NotAfter(DateAt(content, ps[k]), r.value)
  {
    Latest(DatesAt(content, DateMatches(content)))
  }

  // -------------------------------------------------------------- project name

  /**
   * One working-directory pattern: the `Working directory:\s*[A-Z]:\Users\`
   * lead-in or the bare `C:\Users\` one, the folder below the user directory,
   * and whether a `[\s\\"]` character must follow the name.
   */
  datatype PathRule = PathRule(workingDirectory: bool, folder: string, needsTerminator: bool)

  /** The patterns of `extract_project_name`, in priority order. */
  const ProjectRules: seq<PathRule> := [
    PathRule(true, "Projects", false),
    PathRule(true, "Downloads", false),
    PathRule(false, "Projects", true)
  ]

  /** `[a-zA-Z0-9_-]` */
  predicate IsNameChar(c: char) {
    IsAlpha(c) || IsDigit(c) || c == '_' || c == '-'
  }

  predicate IsNameText(s: string) {
    forall k :: 0 <= k < |s| ==> IsNameChar(s[k])
  }

  predicate NotBackslash(c: char) { c != '\\' }

  /** `[\s\\"]` */
  predicate IsTerminator(c: char) { IsSpace(c) || c == '\\' || c == '"' }

  /** Where the user-name segment begins when the rule's lead-in matches at `i`. */
  function LeadEnd(rule: PathRule, s: string, i: nat): (r: Option<nat>)
    ensures r.Some? ==> r.value <= |s|
  {
    if rule.workingDirectory then
      var intro := "Working directory:";
      var users := ":\\Users\\";
      if !OccursAt(s, intro, i) then None
      else
        var j := SpanEnd(s, i + |intro|, IsSpace);
        if j < |s| && IsUpper(s[j]) && OccursAt(s, users, j + 1) then Some(j + 1 + |users|)
        else None
    else
      var lead := "C:\\Users\\";
      if OccursAt(s, lead, i) then Some(i + |lead|) else None
  }

  /**
   * One project pattern anchored at `i`. `[^\\]+` must stop at a backslash and
   * the name class excludes every terminator, so neither run can give
   * characters back: both are the longest runs.
   */
  function PathRuleAt(rule: PathRule, s: string, i: nat): (r: Option<string>)
    ensures r.Some? ==> |r.value| > 0 && IsNameText(r.value)
  {
    match LeadEnd(rule, s, i)
    case None => None
    case Some(u) =>
      var k := SpanEnd(s, u, NotBackslash);
      var sep := "\\" + rule.folder + "\\";
      if k == u || !OccursAt(s, sep, k) then None
      else
        var n0 := k + |sep|;
        var n1 := SpanEnd(s, n0, IsNameChar);
        if n1 == n0 then None
        else if rule.needsTerminator && !(n1 < |s| && IsTerminator(s[n1])) then None
        else Some(s[n0..n1])
  }

  /** `re.search(pattern, content).group(1)` for one rule. */
  function RuleSearch(rule: PathRule, s: string): (r: Option<string>)
    ensures r.Some? ==> |r.value| > 0 && IsNameText(r.value)
  {
    var f := FirstFrom(s, 0, (t: string, i: nat) => PathRuleAt(rule, t, i));
    if f.Some? then
      assert PathRuleAt(rule, s, f.value.0) == Some(f.value.1);
      Some(f.value.1)
    else None
  }

  /** The validation `len(project) > 2 and len(project) < 50 and not project.startswith('-')`. */
  predicate PlausibleProject(p: string) {
    2 < |p| < 50 && p[0] != '-'
  }

  /** A pattern's first match that passes the validation. */
  predicate Accepted(found: Option<string>) {
    found.Some? && PlausibleProject(found.value)
  }

  /**
   * The loop over the patterns, given each pattern's first match in order:
   * a match that fails the validation moves on to the next pattern.
   */
  function FirstAccepted(found: seq<Option<string>>): (r: Option<string>)
    ensures r.Some? ==> PlausibleProject(r.value)
    ensures r.Some? <==> exists k :: 0 <= k < |found| && Accepted(found[k])
    ensures r.Some? ==> exists k :: 0 <= k < |found| && found[k] == r
                           && forall j :: 0 <= j < k ==> !Accepted(found[j])
  {
    if found == [] then None
    else
      var rest := FirstAccepted(found[1..]);
      assert forall k :: 1 <= k < |found| ==> found[k] == found[1..][k - 1];
      if Accepted(found[0]) then found[0] else rest
  }

  /** What each project rule finds, in rule order. */
  function RuleResults(content: string): (found: seq<Option<string>>)
    ensures |found| == |ProjectRules|
    ensures forall k :: 0 <= k < |ProjectRules| ==> found[k] == RuleSearch(ProjectRules[k], content)
  {
    seq(|ProjectRules|, k requires 0 <= k < |ProjectRules| => RuleSearch(ProjectRules[k], content))
  }

  /** `extract_project_name` */
  function ExtractProjectName(content: string): (r: Option<string>)
    ensures r.Some? ==> 3 <= |r.value| <= 49 && r.value[0] != '-' && IsNameText(r.value)
    ensures r.Some? <==> exists k :: 0 <= k < |ProjectRules| && Accepted(RuleSearch(ProjectRules[k], content))
    ensures r.Some? ==> exists k :: 0 <= k < |ProjectRules| && RuleSearch(ProjectRules[k], content) == r
                           && forall j :: 0 <= j < k ==> !Accepted(RuleSearch(ProjectRules[j], content))
  {
    var found := RuleResults(content);
    var r := FirstAccepted(found);
    if r.Some? then
      var k :| 0 <= k < |found| && found[k] == r && forall j :: 0 <= j < k ==> !Accepted(found[j]);
      assert RuleSearch(ProjectRules[k], content) == r;
      r
    else
      r
  }
}

=== FILE: reconciler.dfy ===
/**
 * The reconciler (scripts/update-extracts.py): session ids from content or
 * file name, the user-notes block, the notes merge, the index of existing
 * files, and the per-file decision loop that updates, keeps, copies or
 * skips freshly extracted files. The archive is a map from file name to
 * content; the extraction is an input sequence of files, or a failure.
 */
module Reconciler {
  import opened Wrappers
  import opened Text
  import opened Search
  import opened Dates
  import opened Metadata

  type Dir = map<string, string>

  // --------------------------------------------------------------- session ids

  /** `s.split('-')[0] if '-' in s else s`: everything before the first hyphen. */
  function FirstSegment(s: string): (r: string)
    ensures |r| <= |s| && r == s[..|r|] && '-' !in r
    ensures |r| < |s| ==> s[|r|] == '-'
  {
    match Find(s, "-")
    case None =>
      assert forall j :: 0 <= j < |s| ==> s[j] != '-' by {
        forall j | 0 <= j < |s| ensures s[j] != '-' {
          assert !OccursAt(s, "-", j);
          assert s[j..j + 1][0] == s[j];
        }
      }
      s
    case Some(i) =>
      assert forall j :: 0 <= j < i ==> s[j] != '-' by {
        forall j | 0 <= j < i ensures s[j] != '-' {
          assert !OccursAt(s, "-", j);
          assert s[j..j + 1][0] == s[j];
        }
      }
      assert s[i..i + 1][0] == s[i];
      s[..i]
  }

  /** `extract_session_id_from_content`: the first segment of the renamer's session id. */
  function ContentId(content: string): (r: Option<string>)
    ensures r.None? <==> ExtractSessionId(content).None?
    ensures r.Some? ==> IsIdText(r.value) && '-' !in r.value
    ensures r.Some? ==> var full := ExtractSessionId(content).value;
      |r.value| <= |full| && r.value == full[..|r.value|] && (|r.value| == |full| || full[|r.value|] == '-')
  {
    match ExtractSessionId(content)
    case None => None
    case Some(full) => Some(FirstSegment(full))
  }

  /** `[a-f0-9]`, case-sensitive. */
  predicate IsLowerHex(c: char) { IsDigit(c) || ('a' <= c <= 'f') }

  predicate IsLowerHexText(s: string) {
    forall k :: 0 <= k < |s| ==> IsLowerHex(s[k])
  }

  const ExportPrefix := "claude-conversation-"

  /** The greedy hex run from `j`, if it has at least `min` characters. */
  function HexRun(s: string, j: nat, min: nat): (r: Option<string>)
    requires j <= |s|
    ensures r.Some? ==> |r.value| >= min && IsLowerHexText(r.value)
    ensures r.Some? ==> j + |r.value| <= |s| && r.value == s[j..j + |r.value|]
    ensures r.Some? ==> j + |r.value| == |s| || !IsLowerHex(s[j + |r.value|])
  {
    var e := SpanEnd(s, j, IsLowerHex);
    if e - j >= min then
      assert forall k :: 0 <= k < e - j ==> s[j..e][k] == s[j + k];
      Some(s[j..e])
    else None
  }

  /** `claude-conversation-\d{4}-\d{2}-\d{2}-([a-f0-9]{8,})` at `i`. */
  function ExportIdAt(s: string, i: nat): (r: Option<string>)
    ensures r.Some? ==> |r.value| >= 8 && IsLowerHexText(r.value)
    ensures r.Some? ==> OccursAt(s, ExportPrefix, i) && DateShapeAt(s, i + 20)
  {
    if OccursAt(s, ExportPrefix, i) && DateShapeAt(s, i + 20) && i + 31 <= |s| && s[i + 30] == '-'
    then HexRun(s, i + 31, 8)
    else None
  }

  /** `agent-([a-f0-9]{2,})` at `i`. */
  function AgentIdAt(s: string, i: nat): (r: Option<string>)
    ensures r.Some? ==> |r.value| >= 2 && IsLowerHexText(r.value)
    ensures r.Some? ==> OccursAt(s, "agent-", i)
  {
    if OccursAt(s, "agent-", i) then HexRun(s, i + 6, 2) else None
  }

  /** `extract_session_id_from_filename`: the dated export pattern first, then the agent pattern. */
  function FilenameId(name: string): (r: Option<string>)
    ensures r.Some? ==> |r.value| >= 2 && IsLowerHexText(r.value)
    ensures First(name, ExportIdAt).Some? ==> r == First(name, ExportIdAt) && |r.value| >= 8
    ensures First(name, ExportIdAt).None? ==> r == First(name, AgentIdAt)
    ensures r.None? <==> (forall i :: 0 <= i <= |name| ==> ExportIdAt(name, i).None? && AgentIdAt(name, i).None?)
  {
    var f := FirstFrom(name, 0, ExportIdAt);
    if f.Some? then
      assert ExportIdAt(name, f.value.0) == Some(f.value.1);
      Some(f.value.1)
    else
      var g := FirstFrom(name, 0, AgentIdAt);
      if g.Some? then
        assert AgentIdAt(name, g.value.0) == Some(g.value.1);
        Some(g.value.1)
      else None
  }

  /** The id a file is known by: a non-empty content id, otherwise the file-name id. */
  function ResolveId(content: string, name: string): (r: Option<string>)
    ensures r.Some? ==> r.value != ""
    ensures ContentId(content).Some? && ContentId(content).value != "" ==> r == ContentId(content)
    ensures ContentId(content).None? || ContentId(content).value == "" ==> r == FilenameId(name)
  {
    var c := ContentId(content);
    if c.Some? && c.value != "" then c else FilenameId(name)
  }

  // ---------------------------------------------------------------- user notes

  /*
   * The two markers, written in short pieces so that facts about their
   * characters can be checked piece by piece.
   */
  const StartPieces: seq<string> := ["!-- USER NOTES - ", "This section will ", "be preserved on ", "update -->"]
  const NotesStart := "<" + StartPieces[0] + StartPieces[1] + StartPieces[2] + StartPieces[3]
  const NotesEnd := "<!-- END " + "USER NOTES -->"

  predicate NoNewline(s: string) { forall d :: 0 <= d < |s| ==> s[d] != '\n' }
  predicate NoOpenAngle(s: string) { forall d :: 0 <= d < |s| ==> s[d] != '<' }

  /**
   * What the notes lemmas need of a start and an end marker: both on one
   * line, the end marker shorter and opening with `<`, which appears nowhere
   * inside the start marker.
   */
  predicate MarkerPair(s: string, e: string) {
    && 0 < |e| < |s|
    && NoNewline(s) && NoNewline(e)
    && e[0] == '<'
    && forall d :: 0 < d < |s| ==> s[d] != '<'
  }

  /** A block: the start marker first, and the first end marker closing it. */
  predicate IsBlock(n: string, s: string, e: string) {
    && OccursAt(n, s, 0)
    && |n| > |e|
    && Find(n, e) == Some(|n| - |e|)
  }

  predicate IsNotesBlock(n: string) {
    IsBlock(n, NotesStart, NotesEnd)
  }

  /** From the first start marker through the first end marker, when the end comes after the start. */
  function Between(content: string, s: string, e: string): (r: Option<string>)
    requires MarkerPair(s, e)
    ensures r.None? <==> Find(content, s).None? || Find(content, e).None?
                         || Find(content, e).value <= Find(content, s).value
    ensures r.Some? ==> r.value == content[Find(content, s).value..Find(content, e).value + |e|]
    ensures r.Some? ==> IsBlock(r.value, s, e)
  {
    match (Find(content, s), Find(content, e))
    case (Some(i), Some(j)) =>
      if j > i then
        SliceIsBlock(content, s, e, i, j);
        Some(content[i..j + |e|])
      else None
    case _ => None
  }

  /** `extract_user_notes`: from the first start marker through the first end marker. */
  function ExtractUserNotes(content: string): (r: Option<string>)
    ensures r.None? <==> Find(content, NotesStart).None? || Find(content, NotesEnd).None?
                         || Find(content, NotesEnd).value <= Find(content, NotesStart).value
    ensures r.Some? ==> var s := Find(content, NotesStart).value; var e := Find(content, NotesEnd).value;
      r.value == content[s..e + |NotesEnd|]
    ensures r.Some? ==> IsNotesBlock(r.value)
  {
    NotesMarkers();
    Between(content, NotesStart, NotesEnd)
  }

  lemma PiecesJoin(a: string, b: string)
    ensures NoNewline(a) && NoNewline(b) ==> NoNewline(a + b)
    ensures NoOpenAngle(a) && NoOpenAngle(b) ==> NoOpenAngle(a + b)
  {
    assert forall d :: 0 <= d < |a + b| ==> (a + b)[d] == if d < |a| then a[d] else b[d - |a|];
  }

  lemma StartPiece(k: nat)
    requires k < |StartPieces|
    ensures NoNewline(StartPieces[k]) && NoOpenAngle(StartPieces[k])
  {
    if k == 0 { assert StartPieces[k] == "!-- USER NOTES - "; }
    else if k == 1 { assert StartPieces[k] == "This section will "; }
    else if k == 2 { assert StartPieces[k] == "be preserved on "; }
    else { assert StartPieces[k] == "update -->"; }
  }

  /** The start marker after its `<`: no newline and no `<`. */
  lemma StartTail()
    ensures var t := StartPieces[0] + StartPieces[1] + StartPieces[2] + StartPieces[3];
      NoNewline(t) && NoOpenAngle(t)
  {
    var p0, p1, p2, p3 := StartPieces[0], StartPieces[1], StartPieces[2], StartPieces[3];
    StartPiece(0); StartPiece(1); StartPiece(2); StartPiece(3);
    PiecesJoin(p0, p1); PiecesJoin(p0 + p1, p2); PiecesJoin(p0 + p1 + p2, p3);
  }

  lemma StartShape()
    ensures forall d :: 0 < d < |NotesStart| ==> NotesStart[d] != '<'
    ensures NoNewline(NotesStart)
  {
    var t := StartPieces[0] + StartPieces[1] + StartPieces[2] + StartPieces[3];
    StartTail();
    assert NotesStart == "<" + t;
    assert forall d :: 0 < d < |NotesStart| ==> NotesStart[d] == t[d - 1];
  }

  lemma EndShape()
    ensures NoNewline(NotesEnd) && NotesEnd[0] == '<' && 0 < |NotesEnd| < |NotesStart|
  {
    assert NoNewline("<!-- END ") && NoNewline("USER NOTES -->");
    PiecesJoin("<!-- END ", "USER NOTES -->");
  }

  /** The script's two markers meet what the notes lemmas need. */
  lemma NotesMarkers()
    ensures MarkerPair(NotesStart, NotesEnd)
  {
    StartShape();
    EndShape();
  }

  /** An end marker after a start marker cannot begin inside it. */
  lemma EndAfterStart(content: string, s: string, e: string, i: nat, j: nat)
    requires MarkerPair(s, e)
    requires OccursAt(content, s, i) && OccursAt(content, e, j) && i < j
    ensures i + |s| <= j
  {
    if j < i + |s| {
      OccursAtChar(content, e, j, j);
      OccursAtChar(content, s, i, j);
    }
  }

  /** The slice from the first start marker through the first end marker after it is a block. */
  lemma SliceIsBlock(content: string, s: string, e: string, i: nat, j: nat)
    requires MarkerPair(s, e)
    requires Find(content, s) == Some(i) && Find(content, e) == Some(j) && i < j
    ensures IsBlock(content[i..j + |e|], s, e)
  {
    var n := content[i..j + |e|];
    EndAfterStart(content, s, e, i, j);
    assert n[..|s|] == content[i..i + |s|];
    FindInSlice(content, e, i, j + |e|);
  }

  /** `merge_with_user_notes`: a non-empty block goes after the right-stripped new text. */
  function MergeWithUserNotes(extracted: string, notes: Option<string>): (r: string)
    ensures notes.None? || notes.value == "" ==> r == extracted
    ensures notes.Some? && notes.value != "" ==> var n := notes.value;
      && |r| >= |n| + 1 && r[|r| - |n| - 1..] == n + "\n"
      && RStrip(r[..|r| - |n| - 1]) == RStrip(extracted)
    ensures notes.Some? && notes.value != "" ==> var n := notes.value;
      && |r| == |RStrip(extracted)| + |n| + 3
      && r[..|r| - |n| - 3] == RStrip(extracted) && r[|r| - |n| - 3..|r| - |n| - 1] == "\n\n"
  {
    if notes.None? || notes.value == "" then extracted
    else
      var a := RStrip(extracted);
      var r := a + "\n\n" + notes.value + "\n";
      assert r[..|r| - |notes.value| - 1] == a + "\n\n";
      RStripAppendSpace(a, "\n\n");
      RStripIdempotent(extracted);
      r
  }

  /** The shape of a merge with non-empty notes. */
  lemma MergeShape(extracted: string, n: string)
    requires n != ""
    ensures MergeWithUserNotes(extracted, Some(n)) == RStrip(extracted) + "\n\n" + (n + "\n")
  {
  }

  /** A text without the pattern has none in any prefix either. */
  lemma PrefixLacks(s: string, k: nat, p: string)
    requires k <= |s| && !Contains(s, p)
    ensures !Contains(s[..k], p)
  {
    forall j | 0 <= j ensures !OccursAt(s[..k], p, j) {
      if OccursAt(s[..k], p, j) {
        OccursInPrefix(s, k, p, j);
      }
    }
  }

  /** The block's markers, looked up in the block followed by a newline. */
  lemma BlockMarkers(n: string, s: string, e: string)
    requires IsBlock(n, s, e)
    ensures Find(n + "\n", s) == Some(0)
    ensures Find(n + "\n", e) == Some(|n| - |e|)
  {
    var b := n + "\n";
    OccursInFront(n, "\n", s, 0);
    OccursInFront(n, "\n", e, |n| - |e|);
    forall j | 0 <= j < |n| - |e| ensures !OccursAt(b, e, j) {
      OccursInFront(n, "\n", e, j);
    }
  }

  /** A one-line pattern absent from `a` is found in `a + "\n\n" + b` exactly where it is in `b`. */
  lemma FindPastGap(a: string, b: string, p: string)
    requires |p| > 0 && NoNewline(p) && !Contains(a, p)
    ensures Find(a + "\n\n" + b, p) == if Find(b, p).Some? then Some(|a| + 2 + Find(b, p).value) else None
  {
    NoOccurrenceBefore(a, b, p);
    FindAfter(a + "\n\n", b, p);
  }

  lemma MergedSlice(a: string, n: string)
    ensures (a + "\n\n" + (n + "\n"))[|a| + 2..|a| + 2 + |n|] == n
  {
    var m := a + "\n\n" + (n + "\n");
    assert forall k :: 0 <= k < |n| ==> m[|a| + 2 + k] == n[k];
  }

  /** In the merged text, the markers found are the block's own. */
  lemma MergedMarkers(a: string, n: string, s: string, e: string)
    requires MarkerPair(s, e) && !Contains(a, s) && !Contains(a, e) && IsBlock(n, s, e)
    ensures Find(a + "\n\n" + (n + "\n"), s) == Some(|a| + 2)
    ensures Find(a + "\n\n" + (n + "\n"), e) == Some(|a| + 2 + |n| - |e|)
  {
    BlockMarkers(n, s, e);
    FindPastGap(a, n + "\n", s);
    FindPastGap(a, n + "\n", e);
  }

  /** A block merged after text without markers is the block found again. */
  lemma BlockRoundTrip(extracted: string, n: string, s: string, e: string)
    requires MarkerPair(s, e) && !Contains(extracted, s) && !Contains(extracted, e) && IsBlock(n, s, e)
    ensures Between(MergeWithUserNotes(extracted, Some(n)), s, e) == Some(n)
  {
    var a := RStrip(extracted);
    MergeShape(extracted, n);
    PrefixLacks(extracted, |a|, s);
    PrefixLacks(extracted, |a|, e);
    MergedMarkers(a, n, s, e);
    MergedSlice(a, n);
  }

  /**
   * Notes merged after extracted text without markers are exactly the notes
   * found again in the merged text.
   */
  lemma NotesRoundTrip(extracted: string, n: string)
    requires !Contains(extracted, NotesStart) && !Contains(extracted, NotesEnd)
    requires IsNotesBlock(n)
    ensures ExtractUserNotes(MergeWithUserNotes(extracted, Some(n))) == Some(n)
  {
    NotesMarkers();
    BlockRoundTrip(extracted, n, NotesStart, NotesEnd);
  }

  // --------------------------------------------------------- existing archive

  /** What the archive index keeps per session id: the file and its notes. */
  datatype Entry = Entry(path: string, notes: Option<string>)

  type Index = map<string, Entry>

  /** `*.md`: the names the archive index looks at. */
  predicate IsMarkdown(name: string) {
    |name| >= 3 && name[|name| - 3..] == ".md"
  }

  /** `order` enumerates the archive's markdown files, each once. */
  predicate ListsMarkdown(dir: Dir, order: seq<string>) {
    && (forall i :: 0 <= i < |order| ==> order[i] in dir && IsMarkdown(order[i]))
    && (forall f :: f in dir && IsMarkdown(f) ==> f in order)
    && (forall i, j :: 0 <= i < j < |order| ==> order[i] != order[j])
  }

  /** The entry file `f` contributes to the index, if it has an id. */
  function EntryOf(dir: Dir, f: string): (r: Option<(string, Entry)>)
    requires f in dir
    ensures r.None? <==> ResolveId(dir[f], f).None?
    ensures r.Some? ==> Some(r.value.0) == ResolveId(dir[f], f) && r.value.1 == Entry(f, ExtractUserNotes(dir[f]))
  {
    match ResolveId(dir[f], f)
    case None => None
    case Some(id) => Some((id, Entry(f, ExtractUserNotes(dir[f]))))
  }

  /** The entry each enumerated file contributes, in order. */
  function Entries(dir: Dir, order: seq<string>): (es: seq<Option<(string, Entry)>>)
    requires forall i :: 0 <= i < |order| ==> order[i] in dir
    ensures |es| == |order| && forall i :: 0 <= i < |order| ==> es[i] == EntryOf(dir, order[i])
  {
    if order == [] then [] else [EntryOf(dir, order[0])] + Entries(dir, order[1..])
  }

  /** The dictionary the loop builds: entries in order, a later one replacing an earlier one. */
  function Fold(es: seq<Option<(string, Entry)>>): Index
    decreases |es|
  {
    if es == [] then map[]
    else
      var m := Fold(es[..|es| - 1]);
      var o := es[|es| - 1];
      if o.None? then m else m[o.value.0 := o.value.1]
  }

  lemma {:induction false} FoldSound(es: seq<Option<(string, Entry)>>, id: string)
    requires id in Fold(es)
    ensures exists i :: 0 <= i < |es| && es[i] == Some((id, Fold(es)[id]))
    decreases |es|
  {
    var front := es[..|es| - 1];
    var o := es[|es| - 1];
    if o.None? || o.value.0 != id {
      FoldSound(front, id);
      var i :| 0 <= i < |front| && front[i] == Some((id, Fold(front)[id]));
      assert es[i] == front[i];
    } else {
      assert es[|es| - 1] == Some((id, Fold(es)[id]));
    }
  }

  lemma {:induction false} FoldLastWins(es: seq<Option<(string, Entry)>>, i: nat)
    requires i < |es| && es[i].Some?
    requires forall k :: i < k < |es| && es[k].Some? ==> es[k].value.0 != es[i].value.0
    ensures es[i].value.0 in Fold(es) && Fold(es)[es[i].value.0] == es[i].value.1
    decreases |es|
  {
    var front := es[..|es| - 1];
    if i < |es| - 1 {
      assert front[i] == es[i];
      assert forall k :: i < k < |front| ==> front[k] == es[k];
      FoldLastWins(front, i);
    }
  }

  /**
   * `get_existing_files`: the files in enumeration order, each id mapped to
   * its file and notes, a later file with the same id replacing an earlier one.
   */
  function BuildIndex(dir: Dir, order: seq<string>): (r: Index)
    requires forall i :: 0 <= i < |order| ==> order[i] in dir
    ensures forall id :: id in r ==> IndexedFile(dir, order, id, r[id])
    ensures forall i :: 0 <= i < |order| && ResolveId(dir[order[i]], order[i]).Some? ==>
              ResolveId(dir[order[i]], order[i]).value in r
  {
    var es := Entries(dir, order);
    var r := Fold(es);
    forall id | id in r ensures IndexedFile(dir, order, id, r[id]) {
      FoldSound(es, id);
    }
    forall i | 0 <= i < |order| && ResolveId(dir[order[i]], order[i]).Some?
      ensures ResolveId(dir[order[i]], order[i]).value in r
    {
      FoldKeeps(es, i);
    }
    r
  }

  /** `e` is what the file it names contributes under `id`: an enumerated file with that id, and its notes. */
  predicate IndexedFile(dir: Dir, order: seq<string>, id: string, e: Entry) {
    && e.path in order && e.path in dir
    && ResolveId(dir[e.path], e.path) == Some(id)
    && e.notes == ExtractUserNotes(dir[e.path])
  }

  /** An entry, once folded in, keeps its id in the dictionary. */
  lemma {:induction false} FoldKeeps(es: seq<Option<(string, Entry)>>, i: nat)
    requires i < |es| && es[i].Some?
    ensures es[i].value.0 in Fold(es)
    decreases |es|
  {
    if i < |es| - 1 {
      var front := es[..|es| - 1];
      assert front[i] == es[i];
      FoldKeeps(front, i);
    }
  }

  /** Every index entry is the entry its own file contributes: the file, its id and its notes. */
  lemma IndexSound(dir: Dir, order: seq<string>, id: string)
    requires forall i :: 0 <= i < |order| ==> order[i] in dir
    requires id in BuildIndex(dir, order)
    ensures var e := BuildIndex(dir, order)[id];
      && e.path in order && e.path in dir
      && ResolveId(dir[e.path], e.path) == Some(id)
      && e.notes == ExtractUserNotes(dir[e.path])
  {
    FoldSound(Entries(dir, order), id);
  }

  /**
   * The file enumerated last among those with a given id is the one indexed,
   * so every file with an id has that id in the index.
   */
  lemma IndexLastWins(dir: Dir, order: seq<string>, i: nat)
    requires forall k :: 0 <= k < |order| ==> order[k] in dir
    requires i < |order| && ResolveId(dir[order[i]], order[i]).Some?
    requires forall k :: i < k < |order| ==> ResolveId(dir[order[k]], order[k]) != ResolveId(dir[order[i]], order[i])
    ensures var id := ResolveId(dir[order[i]], order[i]).value;
      id in BuildIndex(dir, order) && BuildIndex(dir, order)[id] == Entry(order[i], ExtractUserNotes(dir[order[i]]))
  {
    FoldLastWins(Entries(dir, order), i);
  }

  /** Every file with an id has its id in the index. */
  lemma IndexComplete(dir: Dir, order: seq<string>, i: nat)
    requires forall k :: 0 <= k < |order| ==> order[k] in dir
    requires i < |order| && ResolveId(dir[order[i]], order[i]).Some?
    ensures ResolveId(dir[order[i]], order[i]).value in BuildIndex(dir, order)
    decreases |order| - i
  {
    var id := ResolveId(dir[order[i]], order[i]);
    if forall k :: i < k < |order| ==> ResolveId(dir[order[k]], order[k]) != id {
      IndexLastWins(dir, order, i);
    } else {
      var k :| i < k < |order| && ResolveId(dir[order[k]], order[k]) == id;
      IndexComplete(dir, order, k);
    }
  }

  // ---------------------------------------------------------- change detection

  /** Python truthiness of the notes: present and non-empty. */
  predicate HasNotes(notes: Option<string>) {
    notes.Some? && notes.value != ""
  }

  /**
   * The old text the comparison sees: when the notes occur in it, every
   * occurrence removed and trailing whitespace dropped; otherwise the text as is.
   */
  function OldWithoutNotes(prior: string, notes: Option<string>): (r: string)
    ensures !HasNotes(notes) || !Contains(prior, notes.value) ==> r == prior
    ensures HasNotes(notes) && Contains(prior, notes.value) ==> |r| <= |prior| - |notes.value|
    ensures r == [] || r == prior || !IsSpace(r[|r| - 1])
  {
    if HasNotes(notes) && Contains(prior, notes.value) then
      RemoveAllChanges(prior, notes.value);
      RStrip(RemoveAll(prior, notes.value))
    else prior
  }

  /** Whether an update writes: the texts differ once right-stripped. */
  function Changed(extracted: string, prior: string, notes: Option<string>): (r: bool)
    ensures !HasNotes(notes) ==> (r <==> RStrip(extracted) != RStrip(prior))
    ensures HasNotes(notes) && Contains(prior, notes.value) ==>
              (r <==> RStrip(extracted) != RStrip(RemoveAll(prior, notes.value)))
  {
    if HasNotes(notes) then
      RStripIdempotent(RemoveAll(prior, notes.value));
      RStrip(extracted) != RStrip(OldWithoutNotes(prior, notes))
    else RStrip(extracted) != RStrip(OldWithoutNotes(prior, notes))
  }

  /** Where a block occurs, its start marker occurs. */
  lemma BlockOccurrence(m: string, n: string, s: string, j: nat)
    requires OccursAt(n, s, 0) && OccursAt(m, n, j)
    ensures OccursAt(m, s, j)
  {
    assert m[j..j + |s|] == m[j..j + |n|][..|s|];
  }

  /** Before the gap, the merged text holds no start marker, so no block. */
  lemma NoBlockBefore(a: string, n: string, s: string, e: string)
    requires MarkerPair(s, e) && !Contains(a, s) && IsBlock(n, s, e)
    ensures forall j :: 0 <= j < |a| + 2 ==> !OccursAt(a + "\n\n" + (n + "\n"), n, j)
  {
    var m := a + "\n\n" + (n + "\n");
    NoOccurrenceBefore(a, n + "\n", s);
    forall j | 0 <= j < |a| + 2 ensures !OccursAt(m, n, j) {
      if OccursAt(m, n, j) {
        BlockOccurrence(m, n, s, j);
      }
    }
  }

  /** Removing the block from the merged text leaves the stripped text and the gap. */
  lemma RemoveMergedBlock(a: string, n: string, s: string, e: string)
    requires MarkerPair(s, e) && !Contains(a, s) && IsBlock(n, s, e)
    ensures Contains(a + "\n\n" + (n + "\n"), n)
    ensures RemoveAll(a + "\n\n" + (n + "\n"), n) == a + "\n\n\n"
  {
    var m := a + "\n\n" + (n + "\n");
    NoBlockBefore(a, n, s, e);
    MergedSlice(a, n);
    assert OccursAt(m, n, |a| + 2);
    RemoveAllPrefix(a + "\n\n", n + "\n", n);
    assert (n + "\n")[..|n|] == n && (n + "\n")[|n|..] == "\n";
    assert RemoveAll(n + "\n", n) == "\n";
  }

  lemma StripGap(s: string)
    ensures RStrip(RStrip(s) + "\n\n\n") == RStrip(s)
  {
    assert AllSpace("\n\n\n");
    RStripAppendSpace(RStrip(s), "\n\n\n");
    RStripIdempotent(s);
  }

  lemma MergedWithoutBlock(extracted: string, n: string, s: string, e: string)
    requires MarkerPair(s, e) && !Contains(extracted, s) && IsBlock(n, s, e)
    ensures OldWithoutNotes(MergeWithUserNotes(extracted, Some(n)), Some(n)) == RStrip(extracted)
  {
    var a := RStrip(extracted);
    MergeShape(extracted, n);
    PrefixLacks(extracted, |a|, s);
    RemoveMergedBlock(a, n, s, e);
    StripGap(extracted);
  }

  /** The merged text reduces, for the comparison, to the stripped extracted text. */
  lemma MergedWithoutNotes(extracted: string, n: string)
    requires !Contains(extracted, NotesStart)
    requires IsNotesBlock(n)
    ensures OldWithoutNotes(MergeWithUserNotes(extracted, Some(n)), Some(n)) == RStrip(extracted)
  {
    NotesMarkers();
    MergedWithoutBlock(extracted, n, NotesStart, NotesEnd);
  }

  /** Change detection ignores the notes block: a file holding merged notes compares as its body. */
  lemma NotesIgnored(extracted: string, body: string, n: string)
    requires !Contains(body, NotesStart) && IsNotesBlock(n)
    ensures Changed(extracted, MergeWithUserNotes(body, Some(n)), Some(n)) <==> RStrip(extracted) != RStrip(body)
  {
    MergedWithoutNotes(body, n);
    RStripIdempotent(body);
  }

  /**
   * Rewriting is stable: after a file is rewritten with the extracted text
   * and its notes, the next run finds the same notes and sees no change.
   */
  lemma RewriteThenUnchanged(extracted: string, notes: Option<string>)
    requires !Contains(extracted, NotesStart) && !Contains(extracted, NotesEnd)
    requires notes.None? || IsNotesBlock(notes.value)
    ensures var written := MergeWithUserNotes(extracted, notes);
      && ExtractUserNotes(written) == notes
      && !Changed(extracted, written, ExtractUserNotes(written))
  {
    if notes.Some? {
      NotesRoundTrip(extracted, notes.value);
      NotesIgnored(extracted, extracted, notes.value);
    }
  }

  /** Trailing whitespace on either side never counts as a change. */
  lemma TrailingWhitespaceIgnored(extracted: string, ws: string, prior: string, notes: Option<string>)
    requires AllSpace(ws)
    ensures Changed(extracted + ws, prior, notes) <==> Changed(extracted, prior, notes)
    ensures !HasNotes(notes) ==> (Changed(extracted, prior + ws, notes) <==> Changed(extracted, prior, notes))
  {
    RStripAppendSpace(extracted, ws);
    RStripAppendSpace(prior, ws);
  }

  // ------------------------------------------------------------ the update run

  /** A file the extraction produced. */
  datatype NewFile = NewFile(name: string, content: string)

  /** `claude-conversation-*.md` */
  predicate GlobMatch(name: string) {
    && |name| >= |ExportPrefix| + 3
    && OccursAt(name, ExportPrefix, 0)
    && name[|name| - 3..] == ".md"
  }

  /** The extracted files the run looks at, in listing order. */
  function Matched(files: seq<NewFile>): (r: seq<NewFile>)
    ensures forall f :: f in r <==> f in files && GlobMatch(f.name)
    ensures |r| <= |files|
    ensures |files| == 1 ==> r == if GlobMatch(files[0].name) then files else []
  {
    if files == [] then []
    else
      var rest := Matched(files[1..]);
      assert forall f :: f in files <==> f == files[0] || f in files[1..];
      if GlobMatch(files[0].name) then [files[0]] + rest else rest
  }

  /**
   * Matching distributes over concatenation: together with the one-file case
   * this pins the result down as the matching files in listing order.
   */
  lemma {:induction false} MatchedAppend(a: seq<NewFile>, b: seq<NewFile>)
    ensures Matched(a + b) == Matched(a) + Matched(b)
  {
    if a == [] {
      assert a + b == b;
    } else {
      assert (a + b)[0] == a[0];
      assert (a + b)[1..] == a[1..] + b;
      MatchedAppend(a[1..], b);
    }
  }

  /** How the index sees an extracted file: no id, an id it lacks, or an id it has. */
  datatype Kind = NoId | NewSession | Known

  function KindOf(index: Index, f: NewFile): Kind {
    match ResolveId(f.content, f.name)
    case None => NoId
    case Some(id) => if id in index then Known else NewSession
  }

  function CountKind(index: Index, fs: seq<NewFile>, k: Kind): (c: nat)
    ensures c <= |fs|
    decreases |fs|
  {
    if fs == [] then 0
    else CountKind(index, fs[..|fs| - 1], k) + (if KindOf(index, fs[|fs| - 1]) == k then 1 else 0)
  }

  /** Every extracted file is of exactly one kind. */
  lemma {:induction false} KindsPartition(index: Index, fs: seq<NewFile>)
    ensures CountKind(index, fs, NoId) + CountKind(index, fs, NewSession) + CountKind(index, fs, Known) == |fs|
    decreases |fs|
  {
    if fs != [] {
      KindsPartition(index, fs[..|fs| - 1]);
    }
  }

  /** What the loop does with one extracted file. */
  datatype Action =
    | Skip
    | Update(path: string, text: string, keptNotes: bool)
    | Unchanged(path: string)
    | Copy(name: string, text: string)

  /** Every indexed file is still in the archive. */
  predicate IndexInDir(index: Index, dir: Dir) {
    forall id :: id in index ==> index[id].path in dir
  }

  /**
   * The decision for one extracted file against the index built before the
   * run and the archive as it is now.
   */
  function Decide(index: Index, dir: Dir, f: NewFile): (a: Action)
    requires IndexInDir(index, dir)
    ensures a.Skip? <==> KindOf(index, f) == NoId
    ensures a.Copy? <==> KindOf(index, f) == NewSession
    ensures a.Copy? ==> a == Copy(f.name, f.content)
    ensures a.Update? || a.Unchanged? ==>
      var e := index[ResolveId(f.content, f.name).value];
      && a.path == e.path
      && (a.Update? <==> Changed(f.content, dir[e.path], e.notes))
      && (a.Update? ==> a.text == MergeWithUserNotes(f.content, e.notes) && (a.keptNotes <==> HasNotes(e.notes)))
  {
    match ResolveId(f.content, f.name)
    case None => Skip
    case Some(id) =>
      if id !in index then Copy(f.name, f.content)
      else
        var e := index[id];
        if Changed(f.content, dir[e.path], e.notes)
        then Update(e.path, MergeWithUserNotes(f.content, e.notes), HasNotes(e.notes))
        else Unchanged(e.path)
  }

  /** The five counters of the run. */
  datatype Stats = Stats(updated: nat, added: nat, untouched: nat, skipped: nat, notesPreserved: nat)

  datatype RunResult = Failed | Done(stats: Stats, dir: Dir)

  /** `k` names an indexed file. */
  predicate IndexedPath(index: Index, k: string) {
    exists id :: id in index && index[id].path == k
  }

  /** `k` is the name of an extracted file of a session the index lacks. */
  predicate CopiedName(index: Index, fs: seq<NewFile>, k: string) {
    exists i :: 0 <= i < |fs| && fs[i].name == k && KindOf(index, fs[i]) == NewSession
  }

  /** How many files the counters account for. */
  function Decisions(st: Stats): nat {
    st.updated + st.added + st.untouched + st.skipped
  }

  /** The counters after one more decision. */
  function Tally(st: Stats, a: Action): (r: Stats)
    ensures Decisions(r) == Decisions(st) + 1
    ensures r.updated >= st.updated && r.added >= st.added && r.untouched >= st.untouched && r.skipped >= st.skipped
    ensures st.notesPreserved <= r.notesPreserved <= st.notesPreserved + 1
    ensures a.Skip? <==> r.skipped > st.skipped
    ensures a.Copy? <==> r.added > st.added
    ensures a.Unchanged? <==> r.untouched > st.untouched
    ensures a.Update? <==> r.updated > st.updated
    ensures r.notesPreserved > st.notesPreserved <==> a.Update? && a.keptNotes
    ensures st.notesPreserved <= st.updated ==> r.notesPreserved <= r.updated
  {
    match a
    case Skip => st.(skipped := st.skipped + 1)
    case Copy(_, _) => st.(added := st.added + 1)
    case Unchanged(_) => st.(untouched := st.untouched + 1)
    case Update(_, _, kept) =>
      st.(updated := st.updated + 1, notesPreserved := st.notesPreserved + if kept then 1 else 0)
  }

  /** The archive after one decision: an update rewrites the indexed file, a copy writes the new name. */
  function Perform(dir: Dir, a: Action): (d: Dir)
    ensures a.Update? ==> d == dir[a.path := a.text]
    ensures a.Copy? ==> d == dir[a.name := a.text]
    ensures a.Skip? || a.Unchanged? ==> d == dir
  {
    match a
    case Update(path, text, _) => dir[path := text]
    case Copy(name, text) => dir[name := text]
    case _ => dir
  }

  /** What the loop keeps true after deciding the first `n` files. */
  predicate Progress(dir: Dir, index: Index, files: seq<NewFile>, n: nat, d: Dir, st: Stats) {
    && n <= |files|
    && ArchiveProgress(dir, index, files[..n], d)
    && st.skipped == CountKind(index, files[..n], NoId)
    && st.added == CountKind(index, files[..n], NewSession)
    && st.updated + st.untouched == CountKind(index, files[..n], Known)
    && st.notesPreserved <= st.updated
    && CopiesKept(index, files, n, d)
  }

  lemma CountStep(index: Index, files: seq<NewFile>, n: nat, k: Kind)
    requires n < |files|
    ensures CountKind(index, files[..n + 1], k)
         == CountKind(index, files[..n], k) + if KindOf(index, files[n]) == k then 1 else 0
  {
    assert files[..n + 1][..n] == files[..n];
  }

  lemma CopiedStep(index: Index, files: seq<NewFile>, n: nat)
    requires n < |files|
    ensures forall k :: CopiedName(index, files[..n], k) ==> CopiedName(index, files[..n + 1], k)
    ensures KindOf(index, files[n]) == NewSession ==> CopiedName(index, files[..n + 1], files[n].name)
  {
    forall k | CopiedName(index, files[..n], k) ensures CopiedName(index, files[..n + 1], k) {
      var i :| 0 <= i < n && files[..n][i].name == k && KindOf(index, files[..n][i]) == NewSession;
      assert files[..n + 1][i] == files[..n][i];
    }
    assert files[..n + 1][n] == files[n];
  }

  /** What the archive invariant says after `n` decisions. */
  predicate ArchiveProgress(dir: Dir, index: Index, fs: seq<NewFile>, d: Dir) {
    && dir.Keys <= d.Keys && IndexInDir(index, d)
    && forall k :: k in d && (k !in dir || d[k] != dir[k]) ==> IndexedPath(index, k) || CopiedName(index, fs, k)
  }

  /** Writing an indexed file or a new session's name keeps the archive invariant. */
  lemma WriteKeeps(dir: Dir, index: Index, fs: seq<NewFile>, fs': seq<NewFile>, d: Dir, w: string, v: string)
    requires ArchiveProgress(dir, index, fs, d)
    requires forall k :: CopiedName(index, fs, k) ==> CopiedName(index, fs', k)
    requires IndexedPath(index, w) || CopiedName(index, fs', w)
    ensures ArchiveProgress(dir, index, fs', d[w := v])
  {
  }

  /** Writing nothing keeps it too, with one more file looked at. */
  lemma NoWriteKeeps(dir: Dir, index: Index, fs: seq<NewFile>, fs': seq<NewFile>, d: Dir)
    requires ArchiveProgress(dir, index, fs, d)
    requires forall k :: CopiedName(index, fs, k) ==> CopiedName(index, fs', k)
    ensures ArchiveProgress(dir, index, fs', d)
  {
  }

  /** One decision writes only an indexed file or the name of a new session. */
  lemma ArchiveStep(dir: Dir, index: Index, files: seq<NewFile>, n: nat, d: Dir)
    requires n < |files| && ArchiveProgress(dir, index, files[..n], d)
    ensures ArchiveProgress(dir, index, files[..n + 1], Perform(d, Decide(index, d, files[n])))
  {
    var a := Decide(index, d, files[n]);
    CopiedStep(index, files, n);
    match a
    case Update(path, text, _) =>
      assert IndexedPath(index, path);
      WriteKeeps(dir, index, files[..n], files[..n + 1], d, path, text);
    case Copy(name, text) =>
      WriteKeeps(dir, index, files[..n], files[..n + 1], d, name, text);
    case _ =>
      NoWriteKeeps(dir, index, files[..n], files[..n + 1], d);
  }

  /** The file is a new session's and its name is not an indexed one: it is copied verbatim. */
  function CopyTest(index: Index): NewFile -> bool {
    f => KindOf(index, f) == NewSession && !IndexedPath(index, f.name)
  }

  /**
   * Every file among the first `n` that passes `p` and is not overwritten by a
   * later file of the same name is in the archive verbatim.
   */
  predicate KeptBy(files: seq<NewFile>, n: nat, d: Dir, p: NewFile -> bool) {
    forall i :: 0 <= i < n <= |files| && p(files[i])
      && (forall j :: i < j < n ==> files[j].name != files[i].name)
      ==> files[i].name in d && d[files[i].name] == files[i].content
  }

  /** A new session's file, not an indexed name and not overwritten later, is in the archive verbatim. */
  predicate CopiesKept(index: Index, files: seq<NewFile>, n: nat, d: Dir) {
    KeptBy(files, n, d, CopyTest(index))
  }

  lemma CopiesStep(index: Index, files: seq<NewFile>, n: nat, d: Dir)
    requires n < |files| && IndexInDir(index, d) && CopiesKept(index, files, n, d)
    ensures CopiesKept(index, files, n + 1, Perform(d, Decide(index, d, files[n])))
  {
    var a := Decide(index, d, files[n]);
    match a
    case Copy(name, text) => CopyKeeps(index, files, n, d);
    case Update(path, text, _) =>
      assert IndexedPath(index, path);
      UpdateKeeps(index, files, n, d, path, text);
    case _ => SkipKeeps(index, files, n, d);
  }

  lemma CopyKeeps(index: Index, files: seq<NewFile>, n: nat, d: Dir)
    requires n < |files| && CopiesKept(index, files, n, d)
    ensures CopiesKept(index, files, n + 1, d[files[n].name := files[n].content])
  {
    KeptByCopy(files, n, d, CopyTest(index));
  }

  lemma UpdateKeeps(index: Index, files: seq<NewFile>, n: nat, d: Dir, w: string, v: string)
    requires n < |files| && CopiesKept(index, files, n, d)
    requires KindOf(index, files[n]) != NewSession && IndexedPath(index, w)
    ensures CopiesKept(index, files, n + 1, d[w := v])
  {
    var p := CopyTest(index);
    forall i | 0 <= i < n && p(files[i]) ensures files[i].name != w {
    }
    KeptByOther(files, n, d, p, w, v);
  }

  lemma SkipKeeps(index: Index, files: seq<NewFile>, n: nat, d: Dir)
    requires n < |files| && CopiesKept(index, files, n, d) && KindOf(index, files[n]) != NewSession
    ensures CopiesKept(index, files, n + 1, d)
  {
    KeptBySame(files, n, d, CopyTest(index));
  }

  lemma KeptByCopy(files: seq<NewFile>, n: nat, d: Dir, p: NewFile -> bool)
    requires n < |files| && KeptBy(files, n, d, p)
    ensures KeptBy(files, n + 1, d[files[n].name := files[n].content], p)
  {
    var d' := d[files[n].name := files[n].content];
    forall i | 0 <= i < n + 1 && p(files[i]) && (forall j :: i < j < n + 1 ==> files[j].name != files[i].name)
      ensures files[i].name in d' && d'[files[i].name] == files[i].content
    {
      if i < n {
        assert files[n].name != files[i].name;
      }
    }
  }

  lemma KeptByOther(files: seq<NewFile>, n: nat, d: Dir, p: NewFile -> bool, w: string, v: string)
    requires n < |files| && KeptBy(files, n, d, p) && !p(files[n])
    requires forall i :: 0 <= i < n && p(files[i]) ==> files[i].name != w
    ensures KeptBy(files, n + 1, d[w := v], p)
  {
    var d' := d[w := v];
    forall i | 0 <= i < n + 1 && p(files[i]) && (forall j :: i < j < n + 1 ==> files[j].name != files[i].name)
      ensures files[i].name in d' && d'[files[i].name] == files[i].content
    {
      assert i != n;
    }
  }

  lemma KeptBySame(files: seq<NewFile>, n: nat, d: Dir, p: NewFile -> bool)
    requires n < |files| && KeptBy(files, n, d, p) && !p(files[n])
    ensures KeptBy(files, n + 1, d, p)
  {
    forall i | 0 <= i < n + 1 && p(files[i]) && (forall j :: i < j < n + 1 ==> files[j].name != files[i].name)
      ensures files[i].name in d && d[files[i].name] == files[i].content
    {
      assert i != n;
    }
  }

  /** One decision adds one to the counter of its kind. */
  lemma CountsStep(index: Index, files: seq<NewFile>, n: nat, d: Dir, st: Stats)
    requires n < |files| && IndexInDir(index, d)
    requires st.skipped == CountKind(index, files[..n], NoId)
    requires st.added == CountKind(index, files[..n], NewSession)
    requires st.updated + st.untouched == CountKind(index, files[..n], Known)
    requires st.notesPreserved <= st.updated
    ensures var st' := Tally(st, Decide(index, d, files[n]));
      && st'.skipped == CountKind(index, files[..n + 1], NoId)
      && st'.added == CountKind(index, files[..n + 1], NewSession)
      && st'.updated + st'.untouched == CountKind(index, files[..n + 1], Known)
      && st'.notesPreserved <= st'.updated
  {
    CountStep(index, files, n, NoId);
    CountStep(index, files, n, NewSession);
    CountStep(index, files, n, Known);
  }

  /** One decision keeps the loop's invariant. */
  lemma ProgressStep(dir: Dir, index: Index, files: seq<NewFile>, n: nat, d: Dir, st: Stats)
    requires Progress(dir, index, files, n, d, st) && n < |files|
    ensures var a := Decide(index, d, files[n]);
      Progress(dir, index, files, n + 1, Perform(d, a), Tally(st, a))
  {
    ArchiveStep(dir, index, files, n, d);
    CountsStep(index, files, n, d, st);
    CopiesStep(index, files, n, d);
  }

  /** Before the loop the archive is untouched and every count is zero. */
  lemma Started(dir: Dir, index: Index, files: seq<NewFile>)
    requires IndexInDir(index, dir)
    ensures Progress(dir, index, files, 0, dir, Stats(0, 0, 0, 0, 0))
  {
    assert files[..0] == [];
  }

  /** Every indexed path names a file of the archive. */
  lemma IndexedFilesExist(dir: Dir, order: seq<string>)
    requires ListsMarkdown(dir, order)
    ensures IndexInDir(BuildIndex(dir, order), dir)
  {
    var index := BuildIndex(dir, order);
    forall id | id in index ensures index[id].path in dir {
      IndexSound(dir, order, id);
    }
  }

  /** Once every file has been processed, the loop invariant yields the run's promises. */
  lemma {:induction false} Finished(dir: Dir, index: Index, files: seq<NewFile>, d: Dir, st: Stats)
    requires Progress(dir, index, files, |files|, d, st)
    ensures st.skipped == CountKind(index, files, NoId)
    ensures st.added == CountKind(index, files, NewSession)
    ensures st.updated + st.untouched == CountKind(index, files, Known)
    ensures st.updated + st.added + st.untouched + st.skipped == |files|
    ensures dir.Keys <= d.Keys
    ensures forall k :: k in d && (k !in dir || d[k] != dir[k]) ==> IndexedPath(index, k) || CopiedName(index, files, k)
    ensures forall i :: 0 <= i < |files| && KindOf(index, files[i]) == NewSession && !IndexedPath(index, files[i].name)
                     && (forall j :: i < j < |files| ==> files[j].name != files[i].name)
                     ==> files[i].name in d && d[files[i].name] == files[i].content
  {
    assert files[..|files|] == files;
    KindsPartition(index, files);
    forall i | 0 <= i < |files| && KindOf(index, files[i]) == NewSession && !IndexedPath(index, files[i].name)
      && (forall j :: i < j < |files| ==> files[j].name != files[i].name)
      ensures files[i].name in d && d[files[i].name] == files[i].content
    {
      assert CopyTest(index)(files[i]);
    }
  }

  /**
   * `update_extracts`. The index is built once from the archive before the
   * loop; each extracted file matching the export pattern is then decided
   * against that index and the archive as the loop has left it.
   */
  method UpdateExtracts(dir: Dir, order: seq<string>, extraction: Option<seq<NewFile>>) returns (r: RunResult)
    requires ListsMarkdown(dir, order)
    ensures r.Failed? <==> extraction.None?
    ensures r.Done? ==>
      var files := Matched(extraction.value);
      var index := BuildIndex(dir, order);
      && r.stats.skipped == CountKind(index, files, NoId)
      && r.stats.added == CountKind(index, files, NewSession)
      && r.stats.updated + r.stats.untouched == CountKind(index, files, Known)
      && r.stats.updated + r.stats.added + r.stats.untouched + r.stats.skipped == |files|
      && r.stats.notesPreserved <= r.stats.updated
      && dir.Keys <= r.dir.Keys
      && (forall k :: k in r.dir && (k !in dir || r.dir[k] != dir[k]) ==>
            IndexedPath(index, k) || CopiedName(index, files, k))
      && (forall i :: 0 <= i < |files| && KindOf(index, files[i]) == NewSession && !IndexedPath(index, files[i].name)
            && (forall j :: i < j < |files| ==> files[j].name != files[i].name)
            ==> files[i].name in r.dir && r.dir[files[i].name] == files[i].content)
  {
    if extraction.None? {
      return Failed;
    }
    var index := BuildIndex(dir, order);
    IndexedFilesExist(dir, order);
    var files := Matched(extraction.value);
    var d, st := DecideAll(dir, index, files);
    Finished(dir, index, files, d, st);
    return Done(st, d);
  }

  /** The loop of `update_extracts`: every file decided in turn against the archive as it stands. */
  method DecideAll(dir: Dir, index: Index, files: seq<NewFile>) returns (d: Dir, st: Stats)
    requires IndexInDir(index, dir)
    ensures Progress(dir, index, files, |files|, d, st)
  {
    d := dir;
    st := Stats(0, 0, 0, 0, 0);
    var n := 0;
    Started(dir, index, files);
    while n < |files|
      invariant Progress(dir, index, files, n, d, st)
    {
      ProgressStep(dir, index, files, n, d, st);
      var a := Decide(index, d, files[n]);
      d := Perform(d, a);
      st := Tally(st, a);
      n := n + 1;
    }
  }
}

=== FILE: renamer.dfy ===
/**
 * One step of the renamer (`process_file` in scripts/rename-extracts.py) over
 * a directory modelled as a map from file name to content: extract the
 * metadata, fix the end date, choose a free canonical name, then write the
 * file with a fresh frontmatter block and drop the old name.
 */
module Renamer {
  import opened Wrappers
  import opened Text
  import opened Dates
  import opened Metadata
  import opened Describe
  import opened Frontmatter

  type Dir = map<string, string>

  // ------------------------------------------------------------------- dates

  /** An absent end date, or one before the start, falls back to the start date. */
  function ResolveEndDate(start: Date, latest: Option<Date>): (r: Date)
    ensures NotAfter(start, r)
    ensures r == start || latest == Some(r)
    ensures latest.Some? && NotAfter(start, latest.value) ==> r == latest.value
  {
    if latest.None? || Before(latest.value, start) then start else latest.value
  }

  // ------------------------------------------------------------------- names

  /** `MM-DD-YYYY--MM-DD-YYYY-description`, without the extension. */
  function BaseName(start: Date, end: Date, description: string): (r: string)
    requires Valid(start) && Valid(end)
    ensures |r| == 23 + |description| && r[23..] == description
    ensures r[..10] == Mdy(start) && r[10..12] == "--" && r[12..22] == Mdy(end) && r[22] == '-'
  {
    var r := Mdy(start) + "--" + Mdy(end) + "-" + description;
    BaseShape(Mdy(start), Mdy(end), description);
    assert r[22] == r[22..23][0];
    r
  }

  /** The `k`-th name tried: `base.md`, then `base-1.md`, `base-2.md`, ... */
  function Candidate(base: string, k: nat): (name: string)
    ensures |name| >= |base| + 3 && name[..|base|] == base && name[|name| - 3..] == ".md"
  {
    if k == 0 then base + ".md" else base + "-" + Itos(k) + ".md"
  }

  /** The name read back from a candidate: the counter between the base and the extension. */
  lemma CandidateInjective(base: string, a: nat, b: nat)
    requires Candidate(base, a) == Candidate(base, b)
    ensures a == b
  {
    var x := Candidate(base, a);
    if a != 0 && b != 0 {
      assert x[|base| + 1..|x| - 3] == Itos(a);
      assert Candidate(base, b)[|base| + 1..|x| - 3] == Itos(b);
      ItosInjective(a, b);
    }
  }

  /** A canonical name carries the start and end dates as month, day and year fields. */
  lemma CandidateCarriesDates(start: Date, end: Date, description: string, k: nat)
    requires Valid(start) && Valid(end)
    ensures var n := Candidate(BaseName(start, end, description), k);
      && |n| >= 26 && n[10..12] == "--" && n[22] == '-' && n[|n| - 3..] == ".md"
      && DigitsAt(n, 0, 2) && DecimalAt(n, 0, 2) == start.month
      && DigitsAt(n, 3, 2) && DecimalAt(n, 3, 2) == start.day
      && DigitsAt(n, 6, 4) && DecimalAt(n, 6, 4) == start.year
      && DigitsAt(n, 12, 2) && DecimalAt(n, 12, 2) == end.month
      && DigitsAt(n, 15, 2) && DecimalAt(n, 15, 2) == end.day
      && DigitsAt(n, 18, 4) && DecimalAt(n, 18, 4) == end.year
  {
    var n := Candidate(BaseName(start, end, description), k);
    CandidateShape(start, end, description, k);
    DateFieldsAt(start, n, 0);
    DateFieldsAt(end, n, 12);
  }

  /** Where the two date fields sit in a canonical name. */
  lemma CandidateShape(start: Date, end: Date, description: string, k: nat)
    requires Valid(start) && Valid(end)
    ensures var n := Candidate(BaseName(start, end, description), k);
      && |n| >= 26 && n[10..12] == "--" && n[22] == '-' && n[|n| - 3..] == ".md"
      && n[..10] == Mdy(start) && n[12..22] == Mdy(end)
  {
    var base := BaseName(start, end, description);
    BaseShape(Mdy(start), Mdy(end), description);
    var n := Candidate(base, k);
    assert n[..|base|] == base;
    SliceWithin(base, n, 0, 0, 10);
    SliceWithin(base, n, 0, 10, 12);
    SliceWithin(base, n, 0, 12, 22);
    SliceWithin(base, n, 0, 22, 23);
    assert n[22] == n[22..23][0];
  }

  /** The fixed layout of a base name built from two ten-character dates. */
  lemma BaseShape(x: string, y: string, description: string)
    requires |x| == 10 && |y| == 10
    ensures var b := x + "--" + y + "-" + description;
      && |b| >= 23 && b[0..10] == x && b[10..12] == "--" && b[12..22] == y && b[22..23] == "-"
  {
  }

  /** A piece of `s`, where `s` sits in `n` at offset `o`, sits in `n` at the shifted offset. */
  lemma SliceWithin(s: string, n: string, o: nat, a: nat, b: nat)
    requires o + |s| <= |n| && n[o..o + |s|] == s && a <= b <= |s|
    ensures s[a..b] == n[o + a..o + b]
  {
    forall k | 0 <= k < b - a ensures s[a..b][k] == n[o + a..o + b][k] {
      assert s[a + k] == n[o..o + |s|][a + k];
    }
  }

  /** The month, day and year fields of a date written at offset `o`. */
  lemma DateFieldsAt(date: Date, n: string, o: nat)
    requires Valid(date) && o + 10 <= |n| && n[o..o + 10] == Mdy(date)
    ensures DigitsAt(n, o, 2) && DecimalAt(n, o, 2) == date.month
    ensures DigitsAt(n, o + 3, 2) && DecimalAt(n, o + 3, 2) == date.day
    ensures DigitsAt(n, o + 6, 4) && DecimalAt(n, o + 6, 4) == date.year
  {
    var s := Mdy(date);
    SliceWithin(s, n, o, 0, 2);
    SliceWithin(s, n, o, 3, 5);
    SliceWithin(s, n, o, 6, 10);
    DecimalAtSame(s, 0, n, o, 2);
    DecimalAtSame(s, 3, n, o + 3, 2);
    DecimalAtSame(s, 6, n, o + 6, 4);
  }

  /** The loop's exit test: the name is absent, or it is the file's own name. */
  predicate Free(dir: Dir, own: string, name: string) {
    name !in dir || name == own
  }

  /** `name` is the first candidate that is free. */
  ghost predicate FirstFree(dir: Dir, own: string, base: string, name: string) {
    exists k: nat :: name == Candidate(base, k) && Free(dir, own, name)
      && forall j :: 0 <= j < k ==> !Free(dir, own, Candidate(base, j))
  }

  /** The names tried before the `k`-th. */
  ghost function Tried(base: string, k: nat): set<string> {
    if k == 0 then {} else Tried(base, k - 1) + {Candidate(base, k - 1)}
  }

  /** Each candidate is new, so `k` names have been tried before the `k`-th. */
  lemma {:induction false} TriedFresh(base: string, k: nat)
    ensures Candidate(base, k) !in Tried(base, k)
    ensures |Tried(base, k)| == k
  {
    if k > 0 {
      TriedFresh(base, k - 1);
      if Candidate(base, k) in Tried(base, k) {
        TriedFrom(base, k, Candidate(base, k));
      }
    }
  }

  lemma {:induction false} TriedFrom(base: string, k: nat, x: string)
    requires x in Tried(base, k)
    ensures exists j :: 0 <= j < k && x == Candidate(base, j) && (x == Candidate(base, k) ==> j == k)
  {
    if x == Candidate(base, k - 1) {
      assert x == Candidate(base, k) ==> k - 1 == k by {
        if x == Candidate(base, k) { CandidateInjective(base, k - 1, k); }
      }
    } else {
      TriedFrom(base, k - 1, x);
      var j :| 0 <= j < k - 1 && x == Candidate(base, j);
      if x == Candidate(base, k) { CandidateInjective(base, j, k); }
    }
  }

  /** The collision loop: try candidates in order until one is free. */
  method ChooseTargetName(dir: Dir, own: string, base: string) returns (name: string, k: nat)
    ensures name == Candidate(base, k) && Free(dir, own, name)
    ensures forall j :: 0 <= j < k ==> !Free(dir, own, Candidate(base, j))
    ensures k <= |dir|
  {
    k := 0;
    name := Candidate(base, 0);
    while name in dir && name != own
      invariant name == Candidate(base, k)
      invariant Tried(base, k) <= dir.Keys
      invariant forall j :: 0 <= j < k ==> !Free(dir, own, Candidate(base, j))
      decreases |dir.Keys - Tried(base, k)|
    {
      TriedStep(dir, base, k);
      k := k + 1;
      name := Candidate(base, k);
    }
    TriedBound(dir, base, k);
  }

  /** A taken candidate joins the tried names, leaving fewer untried names in the directory. */
  lemma TriedStep(dir: Dir, base: string, k: nat)
    requires Tried(base, k) <= dir.Keys && Candidate(base, k) in dir
    ensures Tried(base, k + 1) <= dir.Keys
    ensures |dir.Keys - Tried(base, k + 1)| < |dir.Keys - Tried(base, k)|
  {
    TriedFresh(base, k);
    assert dir.Keys - Tried(base, k) == (dir.Keys - Tried(base, k + 1)) + {Candidate(base, k)};
  }

  /** Distinct tried names all in the directory bound the number of attempts. */
  lemma TriedBound(dir: Dir, base: string, k: nat)
    requires Tried(base, k) <= dir.Keys
    ensures k <= |dir|
  {
    TriedFresh(base, k);
    SubsetCard(Tried(base, k), dir.Keys);
  }

  lemma SubsetCard<T>(a: set<T>, b: set<T>)
    requires a <= b
    ensures |a| <= |b|
  {
    assert b == a + (b - a);
  }

  // -------------------------------------------------------------------- plan

  datatype SkipReason = NoSessionId | NoStartDate

  /** What `process_file` decides from the file's content and name, before looking at the directory. */
  datatype Plan = Plan(sessionId: string, start: Date, end: Date, description: string,
                       project: Option<string>, isSubagent: bool)

  /** A skipped file, a crash on an impossible header date, or a plan. */
  datatype Step = Skip(reason: SkipReason) | Crash | Go(plan: Plan)

  /** The metadata decisions of `process_file`, in the order it makes them. */
  function PlanFile(content: string, filename: string): (r: Step)
    ensures r == Skip(NoSessionId) <==> ExtractSessionId(content).None?
    ensures r == Skip(NoStartDate) <==> ExtractSessionId(content).Some? && ExtractStartDate(content).None?
    ensures r == Crash <==> ExtractSessionId(content).Some? && ExtractStartDate(content).Some?
                            && !Valid(ExtractStartDate(content).value)
    ensures r.Go? ==> var p := r.plan;
      && ExtractSessionId(content) == Some(p.sessionId) && ExtractStartDate(content) == Some(p.start)
      && Valid(p.start) && Valid(p.end) && NotAfter(p.start, p.end)
      && (p.end == p.start || ExtractLatestDate(content) == Some(p.end))
      && (ExtractLatestDate(content).Some? && NotAfter(p.start, ExtractLatestDate(content).value) ==>
            p.end == ExtractLatestDate(content).value)
      && p.project == ExtractProjectName(content)
      && p.description == GenerateDescription(content, p.project, filename)
      && p.isSubagent == IsAgentSession(content, filename)
  {
    match ExtractSessionId(content)
    case None => Skip(NoSessionId)
    case Some(sid) =>
      match ExtractStartDate(content)
      case None => Skip(NoStartDate)
      case Some(start) =>
        if !Valid(start) then Crash
        else Go(PlanFrom(content, filename, sid, start))
  }

  /** The plan for a file whose session id and valid start date are known. */
  function PlanFrom(content: string, filename: string, sid: string, start: Date): (p: Plan)
    requires Valid(start)
    ensures p.sessionId == sid && p.start == start
    ensures Valid(p.end) && NotAfter(p.start, p.end)
    ensures p.end == p.start || ExtractLatestDate(content) == Some(p.end)
    ensures ExtractLatestDate(content).Some? && NotAfter(start, ExtractLatestDate(content).value) ==>
              p.end == ExtractLatestDate(content).value
    ensures p.project == ExtractProjectName(content)
    ensures p.description == GenerateDescription(content, p.project, filename)
    ensures p.isSubagent == IsAgentSession(content, filename)
  {
    var latest := ExtractLatestDate(content);
    var end := ResolveEndDate(start, latest);
    var project := ExtractProjectName(content);
    Plan(sid, start, end, GenerateDescription(content, project, filename),
         project, IsAgentSession(content, filename))
  }

  /** The base of the target name for a plan. */
  function PlanBase(p: Plan): string
    requires Valid(p.start) && Valid(p.end)
  {
    BaseName(p.start, p.end, p.description)
  }

  /** The frontmatter block for a plan; the title is the description title-cased. */
  function PlanFrontmatter(p: Plan): string
    requires Valid(p.start) && Valid(p.end)
  {
    CreateFrontmatter(p.sessionId, p.start, p.end, Title(p.description), p.project, p.isSubagent)
  }

  /** The content written to the target: the new block replacing any old one. */
  function PlanText(p: Plan, content: string): string
    requires Valid(p.start) && Valid(p.end)
  {
    AddFrontmatter(content, PlanFrontmatter(p))
  }

  lemma TitleNewlineFree(description: string)
    requires IsSlugText(description)
    ensures '\n' !in Title(description)
  {
    var t := Title(description);
    forall i | 0 <= i < |t| ensures t[i] != '\n' {
      assert LowerChar(t[i]) == LowerChar(DashToSpace(description[i]));
    }
  }

  lemma IdTextNewlineFree(s: string)
    requires IsIdText(s)
    ensures '\n' !in s
  {
    forall i | 0 <= i < |s| ensures s[i] != '\n' {
      assert IsIdChar(s[i]);
    }
  }

  lemma NameTextNewlineFree(s: string)
    requires IsNameText(s)
    ensures '\n' !in s
  {
    forall i | 0 <= i < |s| ensures s[i] != '\n' {
      assert IsNameChar(s[i]);
    }
  }

  /** The values a plan renders never span lines, so its block is well formed. */
  lemma PlanFieldsNewlineFree(content: string, filename: string)
    requires PlanFile(content, filename).Go?
    ensures var p := PlanFile(content, filename).plan;
      && '\n' !in p.sessionId && '\n' !in Title(p.description)
      && (HasName(p.project) ==> '\n' !in p.project.value)
  {
    var p := PlanFile(content, filename).plan;
    IdTextNewlineFree(p.sessionId);
    TitleNewlineFree(p.description);
    if HasName(p.project) {
      NameTextNewlineFree(p.project.value);
    }
  }

  /**
   * The renamed file starts with a block that reads back as the plan's
   * metadata, whatever the old content was.
   */
  lemma WrittenBlockReadsBack(content: string, filename: string)
    requires PlanFile(content, filename).Go?
    ensures var p := PlanFile(content, filename).plan;
      ReadFrontmatter(PlanText(p, content))
        == Some(Fields(p.sessionId, p.start, p.end, Title(p.description), p.project, p.isSubagent))
  {
    PlanFieldsNewlineFree(content, filename);
    PlanBlockReadsBack(PlanFile(content, filename).plan, content);
  }

  /** Values that never span lines: what a plan needs for its block to read back. */
  predicate OneLine(p: Plan) {
    && '\n' !in p.sessionId && '\n' !in Title(p.description)
    && (HasName(p.project) ==> '\n' !in p.project.value)
  }

  lemma PlanBlockReadsBack(p: Plan, content: string)
    requires Valid(p.start) && Valid(p.end) && OneLine(p)
    ensures ReadFrontmatter(PlanText(p, content))
        == Some(Fields(p.sessionId, p.start, p.end, Title(p.description), p.project, p.isSubagent))
  {
    CreateFrontmatterReadsBack(p.sessionId, p.start, p.end, Title(p.description), p.project, p.isSubagent,
                               StripFrontmatter(content));
  }

  lemma PlanBodyKept(p: Plan, content: string)
    requires Valid(p.start) && Valid(p.end) && OneLine(p)
    requires content == [] || !IsSpace(content[0])
    ensures StripFrontmatter(PlanText(p, content)) == StripFrontmatter(content)
  {
    CreateFrontmatterFenced(p.sessionId, p.start, p.end, Title(p.description), p.project, p.isSubagent);
    var b := StripFrontmatter(content);
    assert b == [] || !IsSpace(b[0]);
    ReplacesFencedBlock(PlanFrontmatter(p), b);
  }

  /**
   * Renaming keeps the body: stripping the written file's block gives what
   * stripping the old content gave, so a second run does not stack blocks.
   */
  lemma WrittenBodyKept(content: string, filename: string)
    requires PlanFile(content, filename).Go?
    requires content == [] || !IsSpace(content[0])
    ensures var p := PlanFile(content, filename).plan;
      StripFrontmatter(PlanText(p, content)) == StripFrontmatter(content)
  {
    PlanFieldsNewlineFree(content, filename);
    PlanBodyKept(PlanFile(content, filename).plan, content);
  }

  // ---------------------------------------------------------------- one step

  datatype Outcome = Skipped(reason: SkipReason) | Aborted | Renamed(oldName: string, newName: string, plan: Plan)

  /**
   * The directory effect of a planned rename: choose the target, write the
   * new text there, and remove the old entry when the target differs.
   */
  method Apply(dir: Dir, name: string, base: string, text: string, dryRun: bool) returns (target: string, dir': Dir)
    requires name in dir
    ensures FirstFree(dir, name, base, target)
    ensures dryRun ==> dir' == dir
    ensures !dryRun ==>
      && dir'.Keys == (dir.Keys - {name}) + {target}
      && dir'[target] == text
      && forall x :: x in dir && x != name ==> x in dir' && dir'[x] == dir[x]
  {
    var k;
    target, k := ChooseTargetName(dir, name, base);
    assert FirstFree(dir, name, base, target) by {
      assert target == Candidate(base, k);
    }
    if dryRun {
      dir' := dir;
      return;
    }
    dir' := dir[target := text];
    if target != name {
      dir' := dir' - {name};
    }
    assert dir'.Keys == (dir.Keys - {name}) + {target};
  }

  /** `process_file` on the entry `name`: the outcome and the directory afterwards. */
  method ProcessFile(dir: Dir, name: string, dryRun: bool) returns (outcome: Outcome, dir': Dir)
    requires name in dir
    ensures PlanFile(dir[name], name).Skip? ==> outcome == Skipped(PlanFile(dir[name], name).reason)
    ensures PlanFile(dir[name], name).Crash? ==> outcome == Aborted
    ensures PlanFile(dir[name], name).Go? ==> outcome.Renamed? && outcome.oldName == name
                                              && outcome.plan == PlanFile(dir[name], name).plan
    ensures !outcome.Renamed? || dryRun ==> dir' == dir
    ensures outcome.Renamed? ==> var p := outcome.plan;
      Valid(p.start) && Valid(p.end) && FirstFree(dir, name, PlanBase(p), outcome.newName)
    ensures outcome.Renamed? && !dryRun ==> var p := outcome.plan;
      && dir'.Keys == (dir.Keys - {name}) + {outcome.newName}
      && dir'[outcome.newName] == PlanText(p, dir[name])
      && forall x :: x in dir && x != name ==> x in dir' && dir'[x] == dir[x]
  {
    var content := dir[name];
    var step := PlanFile(content, name);
    if !step.Go? {
      outcome := if step.Skip? then Skipped(step.reason) else Aborted;
      dir' := dir;
      return;
    }
    var p := step.plan;
    var target;
    target, dir' := Apply(dir, name, PlanBase(p), PlanText(p, content), dryRun);
    outcome := Renamed(name, target, p);
  }
}

=== FILE: search.dfy ===
/**
 * `re.search` as a combinator: a pattern is modelled by a matcher that says,
 * for a start position, whether the pattern matches there and what it
 * captures; the search returns the leftmost position where it does.
 */
module Search {
  import opened Wrappers

  /** Leftmost position at or after `from` where `m` matches, with its capture. */
  function FirstFrom<T>(s: string, from: nat, m: (string, nat) -> Option<T>): (r: Option<(nat, T)>)
    requires from <= |s|
    decreases |s| - from
    ensures r.Some? ==> from <= r.value.0 <= |s| && m(s, r.value.0) == Some(r.value.1)
    ensures r.Some? ==> forall j :: from <= j < r.value.0 ==> m(s, j).None?
    ensures r.None? ==> forall j :: from <= j <= |s| ==> m(s, j).None?
  {
    match m(s, from)
    case Some(v) => Some((from, v))
    case None => if from == |s| then None else FirstFrom(s, from + 1, m)
  }

  /** `m` matches at `p` and at no position before it. */
  predicate LeftmostAt<T>(s: string, m: (string, nat) -> Option<T>, p: nat) {
    p <= |s| && m(s, p).Some? && forall j :: 0 <= j < p ==> m(s, j).None?
  }

  /** `m` matches nowhere in `s`, the empty tail included. */
  predicate NoMatch<T>(s: string, m: (string, nat) -> Option<T>) {
    forall j :: 0 <= j <= |s| ==> m(s, j).None?
  }

  /** `re.search(pattern, s)`: the capture of the leftmost match. */
  function First<T>(s: string, m: (string, nat) -> Option<T>): (r: Option<T>)
    ensures forall p :: LeftmostAt(s, m, p) ==> r == m(s, p)
    ensures r.None? <==> NoMatch(s, m)
  {
    match FirstFrom(s, 0, m)
    case Some((_, v)) =>
      Some(v)
    case None => None
  }

  /** The leftmost match is pinned down by a match at `p` and none before it. */
  lemma FirstAt<T>(s: string, m: (string, nat) -> Option<T>, p: nat, v: T)
    requires p <= |s| && m(s, p) == Some(v)
    requires forall j :: 0 <= j < p ==> m(s, j).None?
    ensures FirstFrom(s, 0, m) == Some((p, v))
    ensures First(s, m) == Some(v)
  {
    var r := FirstFrom(s, 0, m);
    assert r.Some?;
    assert r.value.0 == p;
  }
}

=== FILE: text.dfy ===
/**
 * String primitives of Python's `str` that both scripts rely on, over
 * `seq<char>`: character classes, case mapping (ASCII only), substring
 * search, whitespace stripping, `replace(p, "")` and line joining.
 */
module Text {
  import opened Wrappers

  /** Python's `str.isspace`, which is also the set `\s` matches in a `str` pattern. */
  predicate IsSpace(c: char) {
    || c == ' ' || ('\t' <= c <= '\r') || ('\U{1C}' <= c <= '\U{1F}')
    || c == '\U{85}' || c == '\U{A0}' || c == '\U{1680}'
    || ('\U{2000}' <= c <= '\U{200A}') || c == '\U{2028}' || c == '\U{2029}'
    || c == '\U{202F}' || c == '\U{205F}' || c == '\U{3000}'
  }

  predicate IsUpper(c: char) { 'A' <= c <= 'Z' }
  predicate IsLower(c: char) { 'a' <= c <= 'z' }
  predicate IsDigit(c: char) { '0' <= c <= '9' }
  predicate IsAlpha(c: char) { IsUpper(c) || IsLower(c) }

  /** `[a-z0-9]` */
  predicate IsLowerAlnum(c: char) { IsLower(c) || IsDigit(c) }

  function LowerChar(c: char): char {
    if IsUpper(c) then (c as int + 32) as char else c
  }

  function UpperChar(c: char): char {
    if IsLower(c) then (c as int - 32) as char else c
  }

  /** `str.lower()` restricted to ASCII letters. */
  function Lower(s: string): (r: string)
    ensures |r| == |s|
    ensures forall i :: 0 <= i < |s| ==> r[i] == LowerChar(s[i])
  {
    seq(|s|, i requires 0 <= i < |s| => LowerChar(s[i]))
  }

  /** `p` occurs in `s` starting at index `i`. */
  predicate OccursAt(s: string, p: string, i: nat) {
    i + |p| <= |s| && s[i..i + |p|] == p
  }

  /** `^` under `re.MULTILINE`: the start of the text or just after a newline. */
  predicate LineStart(s: string, i: nat) {
    i <= |s| && (i == 0 || s[i - 1] == '\n')
  }

  /** `s.find(p, from)`: the lowest index at or after `from` where `p` occurs. */
  function FindFrom(s: string, p: string, from: nat): (r: Option<nat>)
    decreases |s| - from
    ensures r.Some? ==> from <= r.value && OccursAt(s, p, r.value)
    ensures r.Some? ==> forall j :: from <= j < r.value ==> !OccursAt(s, p, j)
    ensures r.None? ==> forall j :: from <= j ==> !OccursAt(s, p, j)
  {
    if from + |p| > |s| then None
    else if s[from..from + |p|] == p then Some(from)
    else FindFrom(s, p, from + 1)
  }

  /** `s.find(p)`, with `None` for Python's `-1`. */
  function Find(s: string, p: string): Option<nat> {
    FindFrom(s, p, 0)
  }

  /** Python's `p in s`. */
  predicate Contains(s: string, p: string) {
    Find(s, p).Some?
  }

  lemma ContainsIff(s: string, p: string)
    ensures Contains(s, p) <==> exists i :: OccursAt(s, p, i)
  {
  }

  /** Characters of an occurrence of `p` at `i` are those of `p`. */
  lemma OccursAtChar(s: string, p: string, i: nat, k: nat)
    requires OccursAt(s, p, i) && i <= k < i + |p|
    ensures s[k] == p[k - i]
  {
    assert s[i..i + |p|][k - i] == s[k];
  }

  /** An occurrence inside a prefix is an occurrence in the whole string. */
  lemma OccursInPrefix(s: string, n: nat, p: string, i: nat)
    requires n <= |s| && OccursAt(s[..n], p, i)
    ensures OccursAt(s, p, i)
  {
    assert s[..n][i..i + |p|] == s[i..i + |p|];
  }

  /** End of the longest run of `pred`-characters starting at `j`. */
  function SpanEnd(s: string, j: nat, pred: char -> bool): (k: nat)
    requires j <= |s|
    decreases |s| - j
    ensures j <= k <= |s|
    ensures forall t :: j <= t < k ==> pred(s[t])
    ensures k == |s| || !pred(s[k])
  {
    if j == |s| || !pred(s[j]) then j else SpanEnd(s, j + 1, pred)
  }

  predicate AllSpace(s: string) {
    forall i :: 0 <= i < |s| ==> IsSpace(s[i])
  }

  /** `str.lstrip()` */
  function LStrip(s: string): (r: string)
    ensures exists k :: 0 <= k <= |s| && r == s[k..] && AllSpace(s[..k])
    ensures r == [] || !IsSpace(r[0])
  {
    var k := SpanEnd(s, 0, IsSpace);
    assert AllSpace(s[..k]) by {
      forall i | 0 <= i < k ensures IsSpace(s[..k][i]) {
        assert s[..k][i] == s[i];
      }
    }
    s[k..]
  }

  /** `str.rstrip()` */
  function RStrip(s: string): (r: string)
    ensures |r| <= |s| && r == s[..|r|]
    ensures r == [] || !IsSpace(r[|r| - 1])
    ensures forall i :: |r| <= i < |s| ==> IsSpace(s[i])
  {
    if |s| > 0 && IsSpace(s[|s| - 1]) then RStrip(s[..|s| - 1]) else s
  }

  /** `str.strip()` */
  function Strip(s: string): string {
    RStrip(LStrip(s))
  }

  /** `s.replace(p, "")`: every occurrence of `p` found by a left-to-right scan removed. */
  function RemoveAll(s: string, p: string): (r: string)
    requires |p| > 0
    decreases |s|
    ensures |r| <= |s|
  {
    if |s| < |p| then s
    else if s[..|p|] == p then RemoveAll(s[|p|..], p)
    else [s[0]] + RemoveAll(s[1..], p)
  }

  /** An occurrence past the first character is an occurrence in the tail. */
  lemma OccursDropFirst(s: string, p: string, j: nat)
    requires j > 0 && OccursAt(s, p, j)
    ensures OccursAt(s[1..], p, j - 1)
  {
    forall k | 0 <= k < |p| ensures s[1..][j - 1 + k] == p[k] {
      assert s[j + k] == s[j..j + |p|][k];
    }
  }

  /** The text changes exactly when the pattern occurs, and then loses at least one copy of it. */
  lemma {:induction false} RemoveAllChanges(s: string, p: string)
    requires |p| > 0
    ensures !Contains(s, p) ==> RemoveAll(s, p) == s
    ensures Contains(s, p) ==> |RemoveAll(s, p)| <= |s| - |p|
    decreases |s|
  {
    ContainsIff(s, p);
    if |s| >= |p| {
      if s[..|p|] != p {
        ContainsIff(s[1..], p);
        forall j: nat | OccursAt(s[1..], p, j) ensures OccursAt(s, p, j + 1) {
          assert s[1..][j..j + |p|] == s[j + 1..j + 1 + |p|];
        }
        assert !OccursAt(s, p, 0) by { assert s[0..|p|] == s[..|p|]; }
        forall j: nat | OccursAt(s, p, j) ensures j > 0 && OccursAt(s[1..], p, j - 1) {
          OccursDropFirst(s, p, j);
        }
        RemoveAllChanges(s[1..], p);
        assert [s[0]] + s[1..] == s;
      } else {
        assert OccursAt(s, p, 0);
      }
    }
  }

  /** `"\n".join(ls + [""])`: every line followed by a newline. */
  function Unlines(ls: seq<string>): string {
    if ls == [] then "" else ls[0] + "\n" + Unlines(ls[1..])
  }

  lemma {:induction false} UnlinesAppend(a: seq<string>, b: seq<string>)
    ensures Unlines(a + b) == Unlines(a) + Unlines(b)
  {
    if a != [] {
      assert (a + b)[0] == a[0];
      assert (a + b)[1..] == a[1..] + b;
      UnlinesAppend(a[1..], b);
    } else {
      assert a + b == b;
    }
  }

  /** `s.split("\n")` */
  function SplitLines(s: string): (ls: seq<string>)
    ensures |ls| > 0
    decreases |s|
  {
    match Find(s, "\n")
    case None => [s]
    case Some(i) => [s[..i]] + SplitLines(s[i + 1..])
  }

  /** The first newline after a newline-free line is the one that ends it. */
  lemma FindLineEnd(l: string, rest: string)
    requires '\n' !in l
    ensures Find(l + "\n" + rest, "\n") == Some(|l|)
  {
    var s := l + "\n" + rest;
    assert OccursAt(s, "\n", |l|) by {
      assert s[|l|..|l| + 1] == "\n";
    }
    forall j | 0 <= j < |l| ensures !OccursAt(s, "\n", j) {
      assert s[j] == l[j] && l[j] != '\n';
      assert j + 1 <= |s| ==> s[j..j + 1][0] == s[j];
    }
  }

  /** Splitting at the newline that ends a newline-free line. */
  lemma SplitLinesStep(l: string, rest: string)
    requires '\n' !in l
    ensures SplitLines(l + "\n" + rest) == [l] + SplitLines(rest)
  {
    var s := l + "\n" + rest;
    FindLineEnd(l, rest);
    assert s[..|l|] == l;
    assert s[|l| + 1..] == rest;
  }

  /** Splitting joined newline-free lines at newlines gives the lines back, then the lines of what follows. */
  lemma {:induction false} SplitUnlines(ls: seq<string>, t: string)
    requires forall k :: 0 <= k < |ls| ==> '\n' !in ls[k]
    ensures SplitLines(Unlines(ls) + t) == ls + SplitLines(t)
  {
    if ls == [] {
      assert Unlines(ls) + t == t;
    } else {
      var l, tl := ls[0], ls[1..];
      var rest := Unlines(tl) + t;
      calc {
        SplitLines(Unlines(ls) + t);
        { assert Unlines(ls) + t == l + "\n" + rest; }
        SplitLines(l + "\n" + rest);
        { SplitLinesStep(l, rest); }
        [l] + SplitLines(rest);
        { SplitUnlines(tl, t); }
        [l] + (tl + SplitLines(t));
        { assert ls == [l] + tl; }
        ls + SplitLines(t);
      }
    }
  }

  /** The run found by `SpanEnd` is the maximal one, so any maximal run ending at `m` ends there. */
  lemma {:induction false} SpanEndAt(s: string, j: nat, m: nat, pred: char -> bool)
    requires j <= m <= |s|
    requires forall t :: j <= t < m ==> pred(s[t])
    requires m == |s| || !pred(s[m])
    decreases m - j
    ensures SpanEnd(s, j, pred) == m
  {
    if j < m {
      SpanEndAt(s, j + 1, m, pred);
    }
  }

  /** Left-stripping drops a whitespace prefix and stops at the first other character. */
  lemma LStripSpacePrefix(ws: string, b: string)
    requires AllSpace(ws) && (b == [] || !IsSpace(b[0]))
    ensures LStrip(ws + b) == b
  {
    var s := ws + b;
    SpanEndAt(s, 0, |ws|, IsSpace);
    assert s[|ws|..] == b;
  }

  /** A line start of joined non-empty, newline-free lines holds the first character of one of them. */
  lemma {:induction false} UnlinesLineStart(ls: seq<string>, j: nat)
    requires forall k :: 0 <= k < |ls| ==> ls[k] != [] && '\n' !in ls[k]
    requires j < |Unlines(ls)| && (j == 0 || Unlines(ls)[j - 1] == '\n')
    ensures exists k :: 0 <= k < |ls| && Unlines(ls)[j] == ls[k][0]
  {
    var u := Unlines(ls);
    var l := ls[0];
    var rest := Unlines(ls[1..]);
    assert u == l + "\n" + rest;
    assert forall t :: 0 <= t < |l| ==> u[t] == l[t];
    assert forall t :: 0 <= t < |l| ==> l[t] != '\n';
    if j == 0 {
      assert u[j] == ls[0][0];
    } else if j > |l| {
      var j' := j - |l| - 1;
      assert u[j] == rest[j'];
      assert j' > 0 ==> rest[j' - 1] == u[j - 1];
      UnlinesLineStart(ls[1..], j');
      var k' :| 0 <= k' < |ls[1..]| && rest[j'] == ls[1..][k'][0];
      assert u[j] == ls[k' + 1][0];
    }
  }

  /** Joined lines end with a newline. */
  lemma UnlinesEndsWithNewline(ls: seq<string>)
    requires ls != []
    ensures |Unlines(ls)| > 0 && Unlines(ls)[|Unlines(ls)| - 1] == '\n'
  {
    var n := |ls| - 1;
    UnlinesAppend(ls[..n], [ls[n]]);
    assert ls[..n] + [ls[n]] == ls;
  }

  /** Occurrences past a prefix that holds none are the occurrences in the rest, shifted. */
  lemma FindAfter(a: string, b: string, p: string)
    requires forall j :: 0 <= j < |a| ==> !OccursAt(a + b, p, j)
    ensures Find(a + b, p) == if Find(b, p).Some? then Some(|a| + Find(b, p).value) else None
  {
    var s := a + b;
    forall j | |a| <= j ensures OccursAt(s, p, j) <==> OccursAt(b, p, j - |a|) {
      if j + |p| <= |s| {
        assert s[j..j + |p|] == b[j - |a|..j - |a| + |p|];
      }
    }
    var f := Find(b, p);
    if f.Some? {
      assert OccursAt(s, p, |a| + f.value);
    }
  }

  /** A newline-free pattern absent from `a` cannot start before the text after `a + "\n\n"`. */
  lemma NoOccurrenceBefore(a: string, b: string, p: string)
    requires |p| > 0 && (forall i :: 0 <= i < |p| ==> p[i] != '\n') && !Contains(a, p)
    ensures forall j :: 0 <= j < |a| + 2 ==> !OccursAt(a + "\n\n" + b, p, j)
  {
    var s := a + "\n\n" + b;
    forall j | 0 <= j < |a| + 2 ensures !OccursAt(s, p, j) {
      if j + |p| <= |a| {
        assert !OccursAt(a, p, j) by {
          assert FindFrom(a, p, 0).None?;
        }
        assert s[j..j + |p|] == a[j..j + |p|];
      } else {
        var t := if j >= |a| then j else |a|;
        assert s[t] == '\n';
      }
    }
  }

  /** An occurrence that fits inside a prefix is an occurrence in the prefix. */
  lemma OccursInFront(a: string, b: string, p: string, j: nat)
    requires j + |p| <= |a|
    ensures OccursAt(a + b, p, j) <==> OccursAt(a, p, j)
  {
    assert (a + b)[j..j + |p|] == a[j..j + |p|];
  }

  /** Trailing whitespace does not change the right-stripped text. */
  lemma {:induction false} RStripAppendSpace(a: string, ws: string)
    requires AllSpace(ws)
    ensures RStrip(a + ws) == RStrip(a)
    decreases |ws|
  {
    if ws != [] {
      var n := |ws| - 1;
      assert (a + ws)[..|a + ws| - 1] == a + ws[..n];
      RStripAppendSpace(a, ws[..n]);
    } else {
      assert a + ws == a;
    }
  }

  lemma RStripIdempotent(s: string)
    ensures RStrip(RStrip(s)) == RStrip(s)
  {
  }

  /** `replace` copies the first character when no occurrence starts there. */
  lemma RemoveAllStep(s: string, p: string)
    requires |p| > 0 && |s| >= |p| && !OccursAt(s, p, 0)
    ensures RemoveAll(s, p) == [s[0]] + RemoveAll(s[1..], p)
  {
    assert s[0..|p|] == s[..|p|];
  }

  /** `i` is where `p` first occurs in `s`. */
  predicate FirstOccurrence(s: string, p: string, i: nat) {
    OccursAt(s, p, i) && forall j :: 0 <= j < i ==> !OccursAt(s, p, j)
  }

  /**
   * The replacement cuts the leftmost occurrence and carries on after it: everything
   * before the first occurrence is kept, the occurrence goes, and the rest is treated alike.
   */
  lemma RemoveAllFirst(s: string, p: string, i: nat)
    requires |p| > 0 && FirstOccurrence(s, p, i)
    ensures RemoveAll(s, p) == s[..i] + RemoveAll(s[i + |p|..], p)
  {
    RemoveAllFrom(s, p, i, 0);
    assert s[0..] == s;
    assert s[0..i] == s[..i];
  }

  /** From any point `k` up to the first occurrence, the text is kept up to it and the rest follows the cut. */
  lemma {:induction false} RemoveAllFrom(s: string, p: string, i: nat, k: nat)
    requires |p| > 0 && FirstOccurrence(s, p, i) && k <= i
    ensures RemoveAll(s[k..], p) == s[k..i] + RemoveAll(s[i + |p|..], p)
    decreases i - k
  {
    if k == i {
      RemoveAllAtStart(s[k..], p);
      assert s[k..][|p|..] == s[i + |p|..];
      assert s[k..k] == [];
    } else {
      assert !OccursAt(s, p, k);
      RemoveAllStepAt(s, p, k, i);
      RemoveAllFrom(s, p, i, k + 1);
      KeepOne(s, k, i, RemoveAll(s[k..], p), RemoveAll(s[k + 1..], p), RemoveAll(s[i + |p|..], p));
    }
  }

  /** Keeping one more character in front of a kept stretch. */
  lemma KeepOne(s: string, k: nat, i: nat, x: string, y: string, rest: string)
    requires k < i <= |s| && x == [s[k]] + y && y == s[k + 1..i] + rest
    ensures x == s[k..i] + rest
  {
    assert [s[k]] + s[k + 1..i] == s[k..i];
  }

  /** An occurrence at the very start is cut and the scan resumes after it. */
  lemma RemoveAllAtStart(s: string, p: string)
    requires |p| > 0 && OccursAt(s, p, 0)
    ensures RemoveAll(s, p) == RemoveAll(s[|p|..], p)
  {
    assert s[..|p|] == s[0..|p|];
  }

  /** A position `k` before an occurrence at `i` that itself starts no occurrence keeps its character. */
  lemma RemoveAllStepAt(s: string, p: string, k: nat, i: nat)
    requires |p| > 0 && k < i && OccursAt(s, p, i) && !OccursAt(s, p, k)
    ensures RemoveAll(s[k..], p) == [s[k]] + RemoveAll(s[k + 1..], p)
  {
    var u := s[k..];
    assert u[0..|p|] == s[k..k + |p|];
    RemoveAllStep(u, p);
    assert u[1..] == s[k + 1..];
  }

  /** Occurrences in a text with its first character dropped are occurrences one further on. */
  lemma OccursInTail(a: string, b: string, p: string, j: nat)
    requires a != [] && OccursAt(a[1..] + b, p, j)
    ensures OccursAt(a + b, p, j + 1)
  {
    assert (a + b)[1..] == a[1..] + b;
    assert (a + b)[j + 1..j + 1 + |p|] == (a[1..] + b)[j..j + |p|];
  }

  /** `replace` leaves a prefix holding no occurrence as it is. */
  lemma {:induction false} RemoveAllPrefix(a: string, b: string, p: string)
    requires |p| > 0
    requires forall j :: 0 <= j < |a| ==> !OccursAt(a + b, p, j)
    ensures RemoveAll(a + b, p) == a + RemoveAll(b, p)
    decreases |a|
  {
    if a != [] {
      var s := a + b;
      if |s| < |p| {
        assert RemoveAll(b, p) == b;
      } else {
        RemoveAllStep(s, p);
        assert s[1..] == a[1..] + b;
        forall j | 0 <= j < |a| - 1 ensures !OccursAt(a[1..] + b, p, j) {
          if OccursAt(a[1..] + b, p, j) {
            OccursInTail(a, b, p, j);
          }
        }
        RemoveAllPrefix(a[1..], b, p);
        assert a == [a[0]] + a[1..];
      }
    } else {
      assert a + b == b;
    }
  }

  /** Occurrences inside a slice are occurrences in the whole text, shifted. */
  lemma OccursInSlice(c: string, p: string, s: nat, t: nat, j: nat)
    requires s <= t <= |c| && j + |p| <= t - s
    ensures OccursAt(c[s..t], p, j) <==> OccursAt(c, p, s + j)
  {
    var u := c[s..t][j..j + |p|];
    var v := c[s + j..s + j + |p|];
    assert forall k :: 0 <= k < |p| ==> u[k] == v[k];
    assert u == v;
  }

  /** The first occurrence, seen from a slice around it that starts no later. */
  lemma FindInSlice(c: string, p: string, s: nat, t: nat)
    requires Find(c, p).Some? && s <= Find(c, p).value && Find(c, p).value + |p| <= t <= |c|
    ensures Find(c[s..t], p) == Some(Find(c, p).value - s)
  {
    var e := Find(c, p).value;
    OccursInSlice(c, p, s, t, e - s);
    forall j | 0 <= j < e - s ensures !OccursAt(c[s..t], p, j) {
      if j + |p| <= t - s {
        OccursInSlice(c, p, s, t, j);
      }
    }
  }
}

=== FILE: wrappers.dfy ===
/** The optional-value datatype used for Python's `X | None` results. */
module Wrappers {

  datatype Option<+T> = None | Some(value: T) {

    /** Returns the value in Some or a default value if None */
    function GetOr(default: T): T {
      match this
      case Some(v) => v
      case None => default
    }
  }
}
